=== FILE: README.md ===
# OBJ and BMP loaders of GLExample, in Dafny

This project models the two file decoders of the GLExample OpenGL demo and
proves properties of them.

- **Wavefront OBJ loaders.** There are two of them: class `object`
  (object.cpp) and class `Object` (object.h). Both read a file line by line
  with `while (ifs) { getline(ifs, line); ... }`. That loop hands its body the
  last line twice when the file does not end with a newline (see
  "## Findings"); when the file is empty or ends with a newline the extra
  value is an empty line, which the loaders skip, so both loops build the same
  pools (`ObjParse.AsWrittenAgreesWhenTerminated`). The loaders here consume
  each line once, as intended, and `LineReader.LoopLines` models the loop as
  written. Each line is classified by
  its prefix (`v `, `vt `, `vn `, `f `). A line is kept only when its
  blank-separated token count is one the loader accepts. Kept lines are
  appended to a position, texture-coordinate or normal pool, or, for a
  face, to three index arrays of 0-based indices. Afterwards the loader
  builds:
  - one position, texture coordinate and normal per face corner;
  - a tangent and a bitangent per corner, solved per triangle and then
    orthogonalised against the corner's normal.

  The two loaders differ in these ways:
  - the token counts they accept;
  - whether normals are normalised;
  - whether the tangent basis is normalised;
  - object.h negates the determinant for two particular triangles;
  - object.h writes positions, texture coordinates and normals into flat
    `float` arrays with separate counts.
- **BMP header decoder.** The constructor of `bitmap_image` exists twice: out of
  line in bitmap_image.cpp and inline in bitmapimage.h. It does the following:
  1. reads the 54-byte header and checks the `BM` signature;
  2. takes `biSizeImage`, `biWidth` and `biHeight` as little-endian `int32_t`;
  3. resets everything when a dimension is zero;
  4. defaults a zero size to `width * height * 3`;
  5. reads that many pixel bytes and resets again when the read fails with
     an I/O error; a read cut short by the end of the file keeps what it got.

Modules:

| module | file | what |
|---|---|---|
| `Tokenizer` | tokenizer.dfy | `split_string` / `splitString`: `std::getline` on a string stream with a delimiter |
| `LineReader` | line_reader.dfy | the file-reading loop as written and as intended |
| `Decimal` | decimal.dfy | the numerals `std::stoi` reads in face corners |
| `ObjParse` | obj_parse.dfy | line classification, token-count rules, pools and index arrays, shared by both OBJ loaders (`Variant`) |
| `Deindexing` | deindex.dfy | one pool element per index |
| `TangentFrames` | tangent_frames.dfy | the tangent / bitangent loops |
| `ObjectCpp` | object_cpp.dfy | class `object` |
| `ObjectHeader` | object_h.dfy | class `Object`, with its flattening loops as methods |
| `LittleEndian` | little_endian.dfy | bytes to unsigned values and to `int32_t` |
| `BitmapImage` | bitmap_image.dfy | the constructor of bitmap_image.cpp, and a header encoder to state round trips |
| `BitmapInline` | bitmap_inline.dfy | the inline constructor of bitmapimage.h, statement by statement, proved equal to `BitmapImage.Decode` |

Floating point is opaque:
- coordinates have a type parameter `C`;
- `std::stof`, `glm::normalize`, the per-triangle linear solve and the
  Gram-Schmidt/handedness step are total functions, supplied in a
  `Geometry<C>` record.

What is proved is where every output value comes from, not what the
arithmetic computes.

## Model

| member | source | states |
|---|---|---|
| Tokenizer.Split | object.cpp:193-202 | a string yields no tokens exactly when it is empty |
| Tokenizer.SplitTokensLackDelimiter | object.h:232-241 | no token contains the delimiter |
| Tokenizer.JoinSplit | object.cpp:193-202 | joining the tokens with the delimiter gives back the input, less one trailing delimiter |
| Tokenizer.SplitJoin | object.h:232-241 | splitting a join gives back the tokens, if none contains the delimiter and the last is non-empty |
| Tokenizer.SplitJoinTerminated | object.cpp:193-202 | splitting a join followed by one delimiter gives back the tokens, whatever the last one, if none contains the delimiter |
| Tokenizer.LeadingDelimiter | object.cpp:198-200 | a delimiter at the front yields one empty token, so consecutive blanks give empty tokens (which change the token count the loaders test) |
| Tokenizer.SplitCount | object.cpp:198-200 | the number of tokens is the number of delimiters, plus one when the input is non-empty and does not end with a delimiter |
| Tokenizer.IndexOf | object.cpp:198 | the position found is the first delimiter, or the length when there is none |
| LineReader.Getline | object.cpp:19 | a `getline` on a good stream returns the text up to the first newline and consumes that newline, failing exactly when nothing is left; on a stream at end of file it fails and leaves `line` as it was (stated by GetlineExtractsOneLine and GetlineAfterEnd) |
| LineReader.GetlineExtractsOneLine | object.h:26 | the returned line, the consumed newline and the remaining text make up the old unread text; the line holds no newline; failure exactly on empty input |
| LineReader.GetlineAfterEnd | object.cpp:19 | at end of file `getline` sets failbit and leaves `line` unchanged |
| LineReader.ReadLoop | object.cpp:18-19 | the values the as-written loop body sees from a stream state (stated by ReadLoopFrom) |
| LineReader.LoopLines | object.h:25-26 | the as-written loop on a freshly opened file (stated by LoopSeesLinesThenOneMore) |
| LineReader.Lines | object.cpp:17-19 | the intended lines contain no newline |
| LineReader.LinesRejoin | object.cpp:17-19 | the lines joined with newlines are the file text, less a final newline |
| LineReader.ReadLoopFrom | object.h:24-26 | from any good stream state, the as-written loop sees the remaining lines and then one more value |
| LineReader.LoopSeesLinesThenOneMore | object.cpp:18-19 | the as-written loop sees every line in order and then one more value, which is the last line again when the file does not end with a newline |
| LineReader.UnterminatedLineReadTwice | object.h:25-26 | concrete input: the one-line file `v 1 2 3` is seen twice by the loop body |
| LineReader.GetlineLinesFrom | object.cpp:18-19 | from any good state, `while (std::getline(...))` reads exactly the remaining lines |
| LineReader.CorrectedLoopReadsEachLineOnce | object.cpp:18-19 | the corrected loop reads every line exactly once |
| Decimal.Value | object.cpp:85 | the value `std::stoi` gives a numeral; Render is its inverse (stated by ValueOfRender) |
| Decimal.ValueOfRender | object.cpp:85 | reading the decimal numeral of `n` gives `n` |
| Decimal.Render | object.cpp:85 | a rendered number is a non-empty string of digits |
| ObjParse.Classify | object.cpp:21-72 | the prefix tests `v `, `vt `, `vn `, `f ` on lines of at least three characters (stated by ClassifyByKeyword and ShortLineSkipped) |
| ObjParse.ClassifyByKeyword | object.h:28-78 | on a line of three or more characters the kind is the one the first blank-separated token names (`v`, `vt`, `vn`, `f`, anything else ignored) |
| ObjParse.AcceptsCount | object.cpp:30-76 | the token counts each loader accepts per kind (stated by HeaderStricterThanCpp and RejectedLineChangesNothing) |
| ObjParse.AddLine | object.cpp:20-94 | one turn of the loop body (stated by AddLineOnlyAppends, FaceAppendsThreeCorners, RejectedLineChangesNothing) |
| ObjParse.AddLineOnlyAppends | object.h:28-98 | a turn of the loop body only appends: the old pools and index arrays are prefixes of the new ones, and an accepted line grows exactly one pool by one or the index arrays by three, a rejected one nothing |
| ObjParse.AddLineIndices | object.cpp:72-94 | a turn of the loop body keeps the three index arrays aligned, adding three entries exactly for an accepted face line |
| ObjParse.AddLineVertices | object.cpp:25-39 | a turn of the loop body appends one position exactly for an accepted `v` line, and it is the one on that line |
| ObjParse.AddLineUvs | object.cpp:41-54 | a turn of the loop body appends one texture coordinate exactly for an accepted `vt` line |
| ObjParse.AddLineNormals | object.cpp:56-70 | a turn of the loop body appends one normal exactly for an accepted `vn` line (object.cpp normalises it) |
| ObjParse.ParseLines | object.cpp:18-95 | the three index arrays have equal length, three entries per accepted face line |
| ObjParse.ShortLineSkipped | object.cpp:21-23 | a line shorter than three characters is never accepted and changes nothing |
| ObjParse.RejectedLineChangesNothing | object.cpp:24-94 | a line whose token count its loader rejects leaves every pool and index array unchanged |
| ObjParse.HeaderStricterThanCpp | object.h:34-61 | object.h accepts a subset of what object.cpp accepts; the difference is exactly the `v` lines of 5 tokens and the `vt` lines of 4 |
| ObjParse.FaceAppendsThreeCorners | object.cpp:72-94 | an accepted face appends its three corners' indices to the three index arrays and changes no pool |
| ObjParse.CornerIsOneBased | object.cpp:83-92 | a corner written `a/b/c` is stored as the 0-based indices `a-1`, `b-1`, `c-1` |
| ObjParse.VerticesInFileOrder | object.cpp:25-39 | the k-th position is the one written on the k-th accepted `v` line |
| ObjParse.UvsInFileOrder | object.cpp:41-54 | the k-th texture coordinate is the one written on the k-th accepted `vt` line |
| ObjParse.NormalsInFileOrder | object.cpp:56-70 | the k-th normal is the (object.cpp: normalised) one written on the k-th accepted `vn` line |
| ObjParse.FaceIndexAt | object.cpp:81-93 | index-array entry `i` holds corner `i % 3` of the `(i / 3)`-th accepted face |
| ObjParse.FaceIndicesInFileOrder | object.h:78-98 | the index arrays list the corners of the accepted faces in file order, three per face |
| ObjParse.AsWrittenAgreesWhenTerminated | object.cpp:18-23 | when the file is empty or ends with a newline, the as-written loop and the intended one build the same pools and index arrays |
| ObjParse.AsWrittenRepeatsLastLine | object.h:25-26 | when the last line has no newline, the as-written loop adds that line twice, so a final face is stored twice (three extra indices) |
| Deindexing.Deindex | object.cpp:103-111 | one output element per index, element `k` being the pool element that index `k` names |
| TangentFrames.BuildFrames | object.cpp:114-146 | after `n` triangles there are `3n` tangents and bitangents, entry `i` being the basis of triangle `i / 3` |
| TangentFrames.Orthogonalize | object.cpp:156-165 | the first `n` tangents are orthogonalised against their corner's normal and bitangent; the rest and all bitangents are unchanged |
| TangentFrames.TangentSpace | object.h:143-199 | one tangent and one bitangent per corner: the bitangent of the corner's triangle, and its tangent orthogonalised |
| TangentFrames.SameBasisWithinTriangle | object.cpp:139-145 | the three corners of a triangle carry the same basis before orthogonalisation, and the same bitangent after it |
| TangentFrames.NegatedTriangles | object.h:169-172 | object.cpp never negates the determinant; object.h negates it for exactly the 6th and 12th triangles |
| TangentFrames.TriangleBasis | object.cpp:124-138 | the basis of one triangle: the solve of its edge system, normalised in object.cpp, with the determinant negated in object.h for the 6th and 12th triangles (stated by NormalizedCorners, NegatedCorners and NegatedTriangles) |
| TangentFrames.NormalizedCorners | object.cpp:124-146 | in object.cpp's lists, entry `i` is its triangle's solve, never negated, with tangent and bitangent normalised; the bitangents keep that value after orthogonalisation |
| TangentFrames.NegatedCorners | object.h:169-183 | in object.h's lists, entry `i` is its triangle's solve with the determinant negated exactly for entries 15-17 and 33-35; the bitangents keep that value after orthogonalisation |
| ObjectCpp.Assemble | object.cpp:103-165 | the five output lists have one entry per corner: position, texture coordinate, normal from the pools, and the corner's tangent basis |
| ObjectCpp.Load | object.cpp:103-111 | the output lists have three entries per accepted face line |
| ObjectCpp.Construct | object.cpp:3-8 | an unopenable file leaves every list empty; otherwise there is one position per corner index |
| ObjectCpp.CornerPositionFromFile | object.cpp:103-105 | output position `i` is the one on the `v` line that corner `i % 3` of face `i / 3` names |
| ObjectCpp.CornerUvFromFile | object.cpp:106-108 | output texture coordinate `i` is the one on the `vt` line that the corner names |
| ObjectCpp.CornerNormalFromFile | object.cpp:109-111 | output normal `i` is the normalised one on the `vn` line that the corner names |
| ObjectCpp.ThreeCornersPerFace | object.cpp:81-105 | a loaded object has three corners per accepted face line |
| ObjectCpp.TriangleRepeats | object.cpp:114-122 | a triangle past the end of the intended pools is a copy of the last intended triangle |
| ObjectCpp.DeindexRepeats | object.cpp:103-111 | repeating the last three indices repeats the last three de-indexed elements |
| ObjectCpp.CornerBasisRepeats | object.cpp:114-146 | a repeated corner gets the basis of the triangle it repeats |
| ObjectCpp.FrameEntryRepeats | object.cpp:156-165 | tangent and bitangent of a repeated corner equal those of the corner it repeats |
| ObjectCpp.FramesRepeat | object.cpp:114-165 | repeating the last face appends a copy of its three tangents and bitangents |
| ObjectCpp.AssembleRepeatsLastFace | object.cpp:103-165 | repeating the last face in the pools appends a copy of its three corners to all five output lists |
| ObjectCpp.LoopPoolsRepeatLastFace | object.cpp:18-94 | on an unterminated file ending in an accepted face, the lines the as-written loop hands over parse to the intended pools with that face's corners repeated |
| ObjectCpp.AsWrittenRepeatsLastFace | object.cpp:18-19 | the constructor as written, on an unterminated file ending in an accepted face, yields the intended object with the last face's three corners repeated at the end of every list |
| ObjectHeader.Flatten3Layout | object.h:110-112 | float `i` of a flattened list is component `i % 3` of vector `i / 3` |
| ObjectHeader.Flatten2Layout | object.h:119-120 | float `i` of flattened texture coordinates is component `i % 2` of entry `i / 2` |
| ObjectHeader.Flatten3Injective | object.h:131-136 | the flat array determines the vectors it was written from |
| ObjectHeader.Flatten3Step | object.h:106-113 | one more corner index appends the three components of the vector it names |
| ObjectHeader.Flatten2Step | object.h:117-121 | one more corner index appends the two components of the texture coordinate it names |
| ObjectHeader.FlattenVertexes | object.h:101-113 | the count is three per index, and the array holds the named positions component by component (the `break` never fires) |
| ObjectHeader.FlattenUVs | object.h:115-123 | the count is two per index, and the array holds the named texture coordinates component by component |
| ObjectHeader.FlattenNormales | object.h:125-138 | the count is three per index, and the array holds the named normals component by component |
| ObjectHeader.Build | object.h:101-199 | the flat arrays, their counts, and per-corner bitangents and orthogonalised tangents |
| ObjectHeader.Parsed | object.h:25-99 | the index arrays are aligned, three entries per accepted face |
| ObjectHeader.Construct | object.h:18-199 | the object is left unset exactly when the file cannot be opened; otherwise the flat arrays are the de-indexed positions, texture coordinates and normals component by component (9, 6 and 9 floats per accepted face), and each corner has its triangle's bitangent and its orthogonalised tangent |
| ObjectHeader.VertexFloatAt | object.h:106-113 | float `i` of `getVertexes()` is component `i % 3` of the position that corner index `i / 3` names |
| ObjectHeader.UvFloatAt | object.h:117-121 | float `i` of `getUVs()` is component `i % 2` of the texture coordinate that index `i / 2` names |
| ObjectHeader.VertexFloatFromFile | object.h:101-113 | float `i` of the position array is component `i % 3` of the position on the `v` line that corner `i / 3` names |
| ObjectHeader.UvFloatFromFile | object.h:115-123 | float `i` of the texture-coordinate array is component `i % 2` of the `vt` line that corner `i / 2` names |
| ObjectHeader.NormalFloatFromFile | object.h:125-138 | float `i` of the normal array is component `i % 3` of the (not normalised) normal on the `vn` line that corner `i / 3` names |
| LittleEndian.UintOfBytes | bitmap_image.cpp:25-27 | the little-endian bytes of `n` read back as `n` |
| LittleEndian.BytesOfUint | bitmap_image.cpp:25-27 | re-encoding the value of some bytes at their width gives the bytes back |
| LittleEndian.ToInt32 | bitmap_image.h:84-92 | the `int32_t` reading of a 32-bit pattern is in range, negative exactly when the top bit is set, and congruent to the pattern |
| LittleEndian.FromInt32 | bitmap_image.h:84-92 | the pattern of an `int32_t` reads back as the same value |
| LittleEndian.Int32At | bitmap_image.cpp:25 | a field read from the header is an `int32_t` |
| LittleEndian.Int32RoundTrip | bitmap_image.cpp:25-27 | the four bytes written for `v` read back as `v`, wherever they sit |
| LittleEndian.Int32BytesOfRead | bitmap_image.cpp:35 | writing back a value read from four bytes restores those bytes |
| BitmapImage.PixelBytes | bitmap_image.cpp:46-47 | the read yields the `size` bytes right after the header, or, exactly when the file is shorter than that, every byte after the header |
| BitmapImage.Decode | bitmap_image.cpp:3-55 | the outcome for every file: an unopenable file, a header read error, a short file, a bad signature and a zero dimension give the empty image; the overflow, the throw, and when pixel data is kept are each characterised by the header; kept data has the header's fields and the bytes after the header; otherwise every field is zero |
| BitmapImage.FileHeader | bitmap_image.h:47-67 | a 14-byte file header carrying `BM` and the data pointer at offset 0x0A |
| BitmapImage.InfoHeader | bitmap_image.h:60-75 | a 40-byte info header carrying width, height and size at offsets 0x12, 0x16, 0x22 of the file |
| BitmapImage.HeaderFields | bitmap_image.cpp:21-27 | an encoded header passes the signature test and its fields read back as written |
| BitmapImage.DecodeEncoded | bitmap_image.cpp:3-55 | round trip: a header written for non-zero dimensions and a positive size, followed by enough pixel bytes, decodes to those fields and the first `size` bytes |
| BitmapImage.ZeroSizeDefaults | bitmap_image.cpp:37-40 | a zero declared size becomes `width * height * 3`, or overflows, or throws when negative |
| BitmapImage.DataPointerIgnored | bitmap_image.cpp:35-44 | the data pointer at 0x0A has no effect on the outcome |
| BitmapImage.TruncatedReadKeepsFields | bitmap_image.cpp:47-54 | a read cut short by the end of the file sets eofbit, so it keeps the bytes that were there, the requested size and the dimensions |
| BitmapImage.FailedReadResets | bitmap_image.cpp:47-54 | a pixel read that fails with an I/O error sets badbit without eofbit, so every field is reset, whatever the file's length |
| BitmapInline.FieldsOfHeader | bitmapimage.h:36-39 | the fields read from the 54-byte header buffer are those of the file |
| BitmapInline.Construct | bitmapimage.h:15-67 | the inline constructor ends exactly as the bitmap_image.cpp one, with a non-negative size that is zero exactly for the empty image |

## Left out

- File opening and reading are inputs, not I/O:
  - an OBJ file is `Unopenable` or its text;
  - a BMP file is `Unopenable` or its bytes, plus whether the header read
    and whether the pixel read fail with an I/O error (device errors;
    nothing in the bytes decides them). Such an error sets badbit and never
    eofbit. A header read error gives the empty image, as a short file does;
    a pixel read error resets the object, even on a short file.
- Text-mode newline translation is not modelled. The BMP stream is opened in
  text mode (no `std::ios::binary`); that matters only on platforms that
  translate line endings.
- Console output is not modelled: object.h prints `File not opened!`, `LINE>`,
  `&&&` and `###` traces.
- Floating point is not modelled. `std::stof`, `glm::normalize`, the
  determinant solve, `glm::dot`/`glm::cross` and the sign flip are abstract
  `Geometry` functions. Division by a zero determinant and NaN propagation
  are therefore not modelled.
- ObjParse.ParseLines: requires every accepted face corner to be plain
  decimal numerals up to `INT_MAX` in its first three `/` entries.
  - `std::stoi` also takes signs, leading blanks and trailing junk, and it
    throws `std::invalid_argument` or `std::out_of_range` otherwise.
  - A corner with fewer than three entries indexes past the end of `entries`
    (undefined behaviour).
  - These exception and undefined paths are excluded rather than modelled.
- ObjectCpp.Construct: requires every index to land in its pool; the same
  precondition applies to ObjectHeader.Construct.
  - The source does not check it: an out-of-range index, including
    `0 - 1`, is undefined behaviour in `vertices[index]`.
- Tokenizer.Split: object.cpp calls `split_string(line)` without a
  delimiter (object.cpp:29, 45, 59, 75). Its default argument is declared in
  class `object`'s header, which is not part of this model; it is taken to be
  `' '`, as for object.h's `splitString`.
- `std::stof` exceptions on malformed coordinates are not modelled:
  `parseFloat` is total.
- ObjectCpp.Construct: models each line read once, as
  `while (std::getline(ifs, line))` would, not the loop as written. The
  as-written loop is `LineReader.LoopLines`; `ObjectCpp.AsWrittenRepeatsLastFace`
  states what it changes for object.cpp (see "## Findings").
- ObjectHeader.Construct: models each line read once, not the loop as
  written. `ObjParse.AsWrittenRepeatsLastLine` states the difference for both
  loaders at the level of pools and index arrays.
- ObjectHeader.Construct: the three counts are ideal integers. The
  `m_indices.size() * 3` stored into `int` could overflow for more than
  about 700 million corners.
- ObjectHeader.Construct: when the file cannot be opened, the result is
  `NotOpened`. In the source the counts are then uninitialised and the
  arrays null.
- Memory is not modelled:
  - `new` / `delete[]` / `std::unique_ptr`;
  - `std::bad_alloc` for a huge positive size;
  - the BMP destructor.
- The bytes of a BMP pixel buffer past the end of a truncated read are not
  modelled. `PixelData` records only the bytes actually read; the rest of
  `new char[size]` is indeterminate.
- The `int32_t` casts assume a little-endian host and ignore the alignment
  and strict-aliasing questions they raise.
- The signature test compares `char` with `'B'`/`'M'`; both are ASCII, so
  signedness does not matter and bytes are compared as values 0-255.
- BitmapImage.Decode: `m_width * m_height * BYTES_PER_PIXEL` overflowing
  `int` is signed overflow (undefined behaviour). It is modelled as its own
  outcome `SizeOverflow` rather than as any particular wrap-around.
- The accessors are not separate members. These accessors are the fields of
  `Object`, `FlatObject` and `Image`:
  - object.cpp:168-191;
  - object.h:203-226;
  - bitmap_image.cpp:67-85.
- The commented-out code in object.h:152-160 is not modelled.
- main.cpp, glapp.h and glwindow.h are not modelled: the window, the GL
  calls, and the upload of these buffers.

## Findings

| source | as written | input that shows it | evidently intended | confidence | as-written member | corrected member |
|---|---|---|---|---|---|---|
| object.cpp:18-19 | `while (ifs) { getline(ifs, line); ... }` runs the body once more after the last line. `getline` on a stream already at end of file fails in its sentry and leaves `line` unchanged, so a final line without a newline is processed twice (the same loop is at object.h:25-26) | the four-line file `v 0 0 0`, `vt 0 0`, `vn 0 0 1`, `f 1/1/1 1/1/1 1/1/1` without a final newline: the face is stored twice, giving 6 corners instead of 3 | each line processed once, as `while (std::getline(ifs, line))` does | not executed | ObjectCpp.AsWrittenRepeatsLastFace | LineReader.CorrectedLoopReadsEachLineOnce |

=== FILE: bitmap_image.dfy ===
/**
 The constructor of `bitmap_image` (bitmap_image.cpp, constants in
 bitmap_image.h): read the 54-byte BMP header, check the `BM` signature, take
 `biSizeImage`, `biWidth` and `biHeight` from it, default a zero size to
 `width * height * 3`, then read that many pixel bytes from right after the
 header. The accessors `data()`, `size()`, `width()` and `height()` return the
 fields of `Image` unchanged.

 The header is the Windows `BITMAPFILEHEADER` (14 bytes, `bfOffBits` at 0x0A)
 followed by the `BITMAPINFOHEADER` (40 bytes, `biWidth` at 0x12, `biHeight`
 at 0x16, `biSizeImage` at 0x22).
 */
module BitmapImage {
  import opened LittleEndian

  const HeaderSize: nat := 54
  const Signature1: byte := 0x42  // 'B'
  const Signature2: byte := 0x4D  // 'M'
  const BytesPerPixel: int := 3
  const DataSizeOffset: nat := 0x22
  const DataPointerOffset: nat := 0x0A
  const WidthOffset: nat := 0x12
  const HeightOffset: nat := 0x16

  /**
   What opening the file yields: nothing (`!ifs`), or a stream over its bytes.
   `headerReadFault` and `pixelReadFault` say whether reading the header,
   respectively the pixel data, fails with an I/O error. `istream::read` then
   sets badbit alone; eofbit (with failbit) is set only when the read returns
   normally having run into the end of the file.
   */
  datatype BmpFile = Unopenable | Stream(bytes: seq<byte>, headerReadFault: bool, pixelReadFault: bool)

  /**
   `m_data`: null, or an array of `size()` bytes of which the first `|read|`
   came from the file (the rest, after a read cut short by the end of the
   file, is whatever `new char[]` left there).
   */
  datatype PixelData = Null | Allocated(read: seq<byte>)

  datatype Image = Image(data: PixelData, size: int, width: int, height: int)

  /** Null data and zero size, width and height: the initial and the reset state. */
  const Empty := Image(Null, 0, 0, 0)

  /**
   How the constructor ends: with an object, by the exception
   `std::bad_array_new_length` that `new char[m_data_size]` throws for a
   negative size, or in undefined behaviour when the default size
   `m_width * m_height * BYTES_PER_PIXEL` overflows `int`.
   */
  datatype Construction = Built(image: Image) | ThrowsBadArrayLength | SizeOverflow

  /** The header bytes are all there and start with `BM`. */
  predicate HeaderAccepted(bytes: seq<byte>)
  {
    |bytes| >= HeaderSize && bytes[0] == Signature1 && bytes[1] == Signature2
  }

  /** The file opened, its header was read without error, and the header is accepted. */
  predicate HeaderOk(file: BmpFile)
  {
    file.Stream? && !file.headerReadFault && HeaderAccepted(file.bytes)
  }

  function DeclaredSize(bytes: seq<byte>): int
    requires |bytes| >= HeaderSize
  {
    Int32At(bytes, DataSizeOffset)
  }

  function Width(bytes: seq<byte>): int
    requires |bytes| >= HeaderSize
  {
    Int32At(bytes, WidthOffset)
  }

  function Height(bytes: seq<byte>): int
    requires |bytes| >= HeaderSize
  {
    Int32At(bytes, HeightOffset)
  }

  /** The default size, three bytes per pixel, computed without wrap-around. */
  function DefaultSize(bytes: seq<byte>): int
    requires |bytes| >= HeaderSize
  {
    Width(bytes) * Height(bytes) * BytesPerPixel
  }

  /** The number of pixel bytes the constructor asks for. */
  function RequestedSize(bytes: seq<byte>): int
    requires |bytes| >= HeaderSize
  {
    if DeclaredSize(bytes) == 0 then DefaultSize(bytes) else DeclaredSize(bytes)
  }

  /** The header's dimensions are both non-zero. */
  predicate HasPixels(bytes: seq<byte>)
    requires |bytes| >= HeaderSize
  {
    Width(bytes) != 0 && Height(bytes) != 0
  }

  /** The pixel bytes the constructor can read: at most `size`, starting right after the header. */
  function PixelBytes(bytes: seq<byte>, size: nat): (read: seq<byte>)
    requires |bytes| >= HeaderSize
    ensures |read| <= size && |read| <= |bytes| - HeaderSize
    ensures read == bytes[HeaderSize..][..|read|]
    ensures |read| < size <==> |bytes| - HeaderSize < size
    // A read cut short takes everything after the header.
    ensures |read| < size ==> read == bytes[HeaderSize..]
  {
    var available := |bytes| - HeaderSize;
    bytes[HeaderSize..HeaderSize + (if size <= available then size else available)]
  }

  /** The constructor `bitmap_image::bitmap_image`. */
  function Decode(file: BmpFile): (c: Construction)
    // Open, header and signature failures leave the initial state.
    ensures !HeaderOk(file) ==> c == Built(Empty)
    // A zero dimension resets every field before any allocation.
    ensures HeaderOk(file) && !HasPixels(file.bytes) ==> c == Built(Empty)
    // The default size overflows `int` exactly when it is needed and out of range.
    ensures c == SizeOverflow <==>
      && HeaderOk(file) && HasPixels(file.bytes)
      && DeclaredSize(file.bytes) == 0 && !IsInt32(DefaultSize(file.bytes))
    // Otherwise the allocation throws exactly when the size it asks for is negative.
    ensures c == ThrowsBadArrayLength <==>
      && HeaderOk(file) && HasPixels(file.bytes)
      && IsInt32(RequestedSize(file.bytes)) && RequestedSize(file.bytes) < 0
    // Pixel data is kept exactly when the read of a valid size did not fail,
    // whether or not it ran into the end of the file.
    ensures c.Built? && c.image.data.Allocated? <==>
      && HeaderOk(file) && HasPixels(file.bytes)
      && IsInt32(RequestedSize(file.bytes)) && RequestedSize(file.bytes) >= 0
      && !file.pixelReadFault
    // With data, the fields are the header's and the data is what follows the header.
    ensures c.Built? && c.image.data.Allocated? ==>
      var bytes := file.bytes;
      && c.image.width == Width(bytes) && c.image.height == Height(bytes)
      && c.image.size == RequestedSize(bytes) > 0
      && c.image.data.read == PixelBytes(bytes, RequestedSize(bytes))
    // Without data, every field is zero.
    ensures c.Built? && c.image.data.Null? ==> c.image == Empty
  {
    match file
    case Unopenable => Built(Empty)
    case Stream(bytes, headerFault, fault) =>
      // `if (!ifs)` after reading the header: an error or a file shorter than the header.
      if headerFault || |bytes| < HeaderSize then Built(Empty)
      else if bytes[0] != Signature1 || bytes[1] != Signature2 then Built(Empty)
      else
        var width := Width(bytes);
        var height := Height(bytes);
        if width == 0 || height == 0 then Built(Empty)
        else if DeclaredSize(bytes) == 0 && !IsInt32(DefaultSize(bytes)) then SizeOverflow
        else
          NonZeroDefault(width, height);
          var size := RequestedSize(bytes);
          if size < 0 then ThrowsBadArrayLength
          else
            var read := PixelBytes(bytes, size);
            // A failing read sets badbit alone; a short one sets eofbit and failbit.
            var eof := !fault && |read| < size;
            var good := !fault && !eof;
            // `!ifs.good() && !ifs.eof()`: only a failing read resets.
            if !good && !eof then Built(Empty)
            else Built(Image(Allocated(read), size, width, height))
  }

  /** Non-zero dimensions give a non-zero default size. */
  lemma NonZeroDefault(width: int, height: int)
    requires width != 0 && height != 0
    ensures width * height * BytesPerPixel != 0
  {
  }

  /** A `BITMAPFILEHEADER`: the signature, size and reserved fields zero, then `bfOffBits`. */
  function FileHeader(dataPointer: int): (h: seq<byte>)
    requires IsInt32(dataPointer)
    ensures |h| == 14 && h[0] == Signature1 && h[1] == Signature2
    ensures h[DataPointerOffset..] == Int32Bytes(dataPointer)
  {
    var h := [Signature1, Signature2] + Zeros(8) + Int32Bytes(dataPointer);
    assert h[DataPointerOffset..] == Int32Bytes(dataPointer);
    h
  }

  /** A `BITMAPINFOHEADER` with the given `biWidth`, `biHeight` and `biSizeImage`, every other field zero. */
  function InfoHeader(width: int, height: int, size: int): (h: seq<byte>)
    requires IsInt32(width) && IsInt32(height) && IsInt32(size)
    ensures |h| == 40
    ensures h[WidthOffset - 14..WidthOffset - 10] == Int32Bytes(width)
    ensures h[HeightOffset - 14..HeightOffset - 10] == Int32Bytes(height)
    ensures h[DataSizeOffset - 14..DataSizeOffset - 10] == Int32Bytes(size)
  {
    var w, ht, s := Int32Bytes(width), Int32Bytes(height), Int32Bytes(size);
    var dims := Zeros(4) + w + ht;
    var rest := Zeros(8) + s + Zeros(16);
    assert dims[4..8] == w && dims[8..12] == ht;
    assert rest[8..12] == s;
    var h := dims + rest;
    assert h[4..8] == dims[4..8] && h[8..12] == dims[8..12];
    assert h[20..24] == rest[8..12];
    h
  }

  /** The 54 header bytes written for the given fields. */
  function EncodeHeader(dataPointer: int, width: int, height: int, size: int): (h: seq<byte>)
    requires IsInt32(dataPointer) && IsInt32(width) && IsInt32(height) && IsInt32(size)
    ensures |h| == HeaderSize
  {
    FileHeader(dataPointer) + InfoHeader(width, height, size)
  }

  function Zeros(n: nat): (z: seq<byte>)
    ensures |z| == n
  {
    seq(n, k => 0)
  }

  /** The fields of an encoded header read back as written. */
  lemma HeaderFields(dataPointer: int, width: int, height: int, size: int, pixels: seq<byte>)
    requires IsInt32(dataPointer) && IsInt32(width) && IsInt32(height) && IsInt32(size)
    ensures var bytes := EncodeHeader(dataPointer, width, height, size) + pixels;
      && HeaderAccepted(bytes)
      && Int32At(bytes, DataPointerOffset) == dataPointer
      && Width(bytes) == width && Height(bytes) == height && DeclaredSize(bytes) == size
      && bytes[HeaderSize..] == pixels
  {
    var file := FileHeader(dataPointer);
    var info := InfoHeader(width, height, size);
    var bytes := file + info + pixels;
    assert bytes[DataPointerOffset..DataPointerOffset + 4] == file[DataPointerOffset..];
    Int32Field(bytes, DataPointerOffset, dataPointer);
    FieldInInfo(file, info, pixels, WidthOffset);
    Int32Field(bytes, WidthOffset, width);
    FieldInInfo(file, info, pixels, HeightOffset);
    Int32Field(bytes, HeightOffset, height);
    FieldInInfo(file, info, pixels, DataSizeOffset);
    Int32Field(bytes, DataSizeOffset, size);
  }

  /** A field of the info header sits 14 bytes further on in the whole file. */
  lemma FieldInInfo(file: seq<byte>, info: seq<byte>, pixels: seq<byte>, offset: nat)
    requires |file| == 14 && |info| == 40 && 14 <= offset <= 50
    ensures (file + info + pixels)[offset..offset + 4] == info[offset - 14..offset - 10]
  {
  }

  /**
   Round trip: a header written for a non-zero width and height and a positive
   size, followed by at least that many pixel bytes, decodes to exactly those
   fields and the first `size` pixel bytes, whatever the data pointer says.
   */
  lemma DecodeEncoded(dataPointer: int, width: int, height: int, size: int, pixels: seq<byte>)
    requires IsInt32(dataPointer) && IsInt32(width) && IsInt32(height) && IsInt32(size)
    requires width != 0 && height != 0 && 0 < size <= |pixels|
    ensures Decode(Stream(EncodeHeader(dataPointer, width, height, size) + pixels, false, false))
         == Built(Image(Allocated(pixels[..size]), size, width, height))
  {
    HeaderFields(dataPointer, width, height, size, pixels);
  }

  /** A zero declared size is replaced by three bytes per pixel, or overflows. */
  lemma ZeroSizeDefaults(dataPointer: int, width: int, height: int, pixels: seq<byte>)
    requires IsInt32(dataPointer) && IsInt32(width) && IsInt32(height)
    requires width != 0 && height != 0
    ensures var c := Decode(Stream(EncodeHeader(dataPointer, width, height, 0) + pixels, false, false));
      var d := width * height * BytesPerPixel;
      && (c == SizeOverflow <==> !IsInt32(d))
      && (c == ThrowsBadArrayLength <==> IsInt32(d) && d < 0)
      && (c.Built? ==> c.image.size == d)
  {
    HeaderFields(dataPointer, width, height, 0, pixels);
  }

  /** Bytes 0x0A to 0x0D (`bfOffBits`) have no effect on the outcome. */
  lemma DataPointerIgnored(bytes: seq<byte>, pointer: seq<byte>, headerFault: bool, fault: bool)
    requires |bytes| >= HeaderSize && |pointer| == 4
    ensures var other := bytes[..DataPointerOffset] + pointer + bytes[DataPointerOffset + 4..];
      Decode(Stream(other, headerFault, fault)) == Decode(Stream(bytes, headerFault, fault))
  {
    var other := bytes[..DataPointerOffset] + pointer + bytes[DataPointerOffset + 4..];
    assert |other| == |bytes|;
    assert other[0] == bytes[0] && other[1] == bytes[1];
    assert other[WidthOffset..WidthOffset + 4] == bytes[WidthOffset..WidthOffset + 4];
    assert other[HeightOffset..HeightOffset + 4] == bytes[HeightOffset..HeightOffset + 4];
    assert other[DataSizeOffset..DataSizeOffset + 4] == bytes[DataSizeOffset..DataSizeOffset + 4];
    assert other[HeaderSize..] == bytes[HeaderSize..];
  }

  /**
   A read cut short by the end of the file sets eofbit, so it keeps the
   requested size, the fields and the bytes that were there.
   */
  lemma TruncatedReadKeepsFields(bytes: seq<byte>)
    requires HeaderAccepted(bytes) && HasPixels(bytes)
    requires IsInt32(RequestedSize(bytes))
    requires |bytes| - HeaderSize < RequestedSize(bytes)
    ensures Decode(Stream(bytes, false, false))
         == Built(Image(Allocated(bytes[HeaderSize..]), RequestedSize(bytes), Width(bytes), Height(bytes)))
  {
  }

  /**
   A pixel read that fails with an I/O error sets badbit but not eofbit, so the
   object is reset, however many bytes the file holds.
   */
  lemma FailedReadResets(bytes: seq<byte>)
    requires HeaderAccepted(bytes) && HasPixels(bytes)
    requires IsInt32(RequestedSize(bytes)) && RequestedSize(bytes) >= 0
    ensures Decode(Stream(bytes, false, true)) == Built(Empty)
  {
  }
}

=== FILE: bitmap_inline.dfy ===
/**
 The second `bitmap_image`, defined inline in bitmapimage.h: the same
 constructor written statement by statement, with the four members as
 mutable state. It ends exactly as the constructor of bitmap_image.cpp does.
 */
module BitmapInline {
  import opened LittleEndian
  import opened BitmapImage

  /** The header buffer holds the same fields as the file it was read from. */
  lemma FieldsOfHeader(bytes: seq<byte>)
    requires |bytes| >= HeaderSize
    ensures var header := bytes[..HeaderSize];
      && Int32At(header, DataSizeOffset) == DeclaredSize(bytes)
      && Int32At(header, WidthOffset) == Width(bytes)
      && Int32At(header, HeightOffset) == Height(bytes)
  {
    var header := bytes[..HeaderSize];
    assert header[DataSizeOffset..DataSizeOffset + 4] == bytes[DataSizeOffset..DataSizeOffset + 4];
    assert header[WidthOffset..WidthOffset + 4] == bytes[WidthOffset..WidthOffset + 4];
    assert header[HeightOffset..HeightOffset + 4] == bytes[HeightOffset..HeightOffset + 4];
  }

  /** The inline constructor (bitmapimage.h:15-67), for the file `file`. */
  method Construct(file: BmpFile) returns (c: Construction)
    ensures c == Decode(file)
    ensures c.Built? ==> c.image.size >= 0 && (c.image.size == 0 <==> c.image == Empty)
  {
    // The member initialisers.
    var data: PixelData := Null;
    var size: int := 0;
    var width: int := 0;
    var height: int := 0;
    if file.Unopenable? {
      return Built(Image(data, size, width, height));
    }
    var bytes := file.bytes;
    // `ifs.read(header, HEADER_SIZE)` fails on a short file or an I/O error.
    if file.headerReadFault || |bytes| < HeaderSize {
      return Built(Image(data, size, width, height));
    }
    var header := bytes[..HeaderSize];
    FieldsOfHeader(bytes);
    if header[0] != Signature1 || header[1] != Signature2 {
      return Built(Image(data, size, width, height));
    }
    size := Int32At(header, DataSizeOffset);
    width := Int32At(header, WidthOffset);
    height := Int32At(header, HeightOffset);
    if width == 0 || height == 0 {
      size := 0;
      width := 0;
      height := 0;
      return Built(Image(data, size, width, height));
    }
    var dataPointer := Int32At(header, DataPointerOffset);
    if size == 0 {
      var product := width * height * BytesPerPixel;
      if !IsInt32(product) {
        return SizeOverflow;
      }
      size := product;
    }
    if dataPointer == 0 {
      dataPointer := HeaderSize;
    }
    if size < 0 {
      return ThrowsBadArrayLength;
    }
    // `ifs.read(m_data, m_data_size)` continues right after the header.
    var available := |bytes| - HeaderSize;
    var count := if size <= available then size else available;
    data := Allocated(bytes[HeaderSize..HeaderSize + count]);
    // A failing read sets badbit alone; a short one sets eofbit and failbit.
    var eof := !file.pixelReadFault && count < size;
    var good := !file.pixelReadFault && !eof;
    if !good && !eof {
      data := Null;
      size := 0;
      width := 0;
      height := 0;
    }
    c := Built(Image(data, size, width, height));
  }
}

=== FILE: decimal.dfy ===
/**
 The part of `std::stoi` the face parser relies on: the value of a decimal
 numeral. Numerals here are non-empty strings of ASCII digits; the signs,
 leading blanks and trailing junk `std::stoi` also tolerates are not modelled
 (the loaders' callers are required to supply plain numerals).
 */
module Decimal {

  /** The largest value of a 32-bit `int`, beyond which `std::stoi` throws. */
  const IntMax: int := 0x7FFF_FFFF

  predicate IsDigit(c: char) {
    '0' <= c <= '9'
  }

  /** A non-empty string of decimal digits. */
  predicate IsNumeral(s: string) {
    |s| > 0 && forall k :: 0 <= k < |s| ==> IsDigit(s[k])
  }

  function DigitValue(c: char): (d: nat)
    requires IsDigit(c)
    ensures d < 10
  {
    (c as int) - ('0' as int)
  }

  function DigitChar(d: nat): (c: char)
    requires d < 10
    ensures IsDigit(c) && DigitValue(c) == d
  {
    (('0' as int) + d) as char
  }

  /** The value of a string of digits, most significant digit first. */
  function Value(s: string): nat
    requires forall k :: 0 <= k < |s| ==> IsDigit(s[k])
    decreases |s|
  {
    if s == [] then 0 else 10 * Value(s[..|s| - 1]) + DigitValue(s[|s| - 1])
  }

  /** The shortest numeral of `n`. */
  function Render(n: nat): (s: string)
    ensures IsNumeral(s)
    decreases n
  {
    if n < 10 then [DigitChar(n)] else Render(n / 10) + [DigitChar(n % 10)]
  }

  /** Reading a rendered number gives the number back. */
  lemma {:induction false} ValueOfRender(n: nat)
    ensures Value(Render(n)) == n
    decreases n
  {
    if n >= 10 {
      var s := Render(n);
      assert s[..|s| - 1] == Render(n / 10);
      ValueOfRender(n / 10);
    }
  }

  /** A numeral contains no character other than digits (in particular no delimiter). */
  lemma NumeralHasNoOtherChar(s: string, c: char)
    requires IsNumeral(s) && !IsDigit(c)
    ensures c !in s
  {
  }

  /** A numeral `std::stoi` accepts without throwing `std::out_of_range`. */
  predicate FitsInt(s: string) {
    IsNumeral(s) && Value(s) <= IntMax
  }
}

=== FILE: deindex.dfy ===
/**
 "De-indexing": turning a pool and an index array into one element per index,
 as the three `push_back` loops of object.cpp:103-111 do.
 */
module Deindexing {

  /** Every index names an element of the pool. */
  predicate IndicesInRange<T>(pool: seq<T>, indices: seq<int>)
  {
    forall k :: 0 <= k < |indices| ==> 0 <= indices[k] < |pool|
  }

  /** `for (index : indices) out.push_back(pool[index]);` */
  function Deindex<T>(pool: seq<T>, indices: seq<int>): (out: seq<T>)
    requires IndicesInRange(pool, indices)
    ensures |out| == |indices|
    ensures forall k :: 0 <= k < |indices| ==> out[k] == pool[indices[k]]
    decreases |indices|
  {
    if indices == [] then []
    else Deindex(pool, indices[..|indices| - 1]) + [pool[indices[|indices| - 1]]]
  }
}

=== FILE: line_reader.dfy ===
/**
 Reading an OBJ file line by line. Both loaders read with

     while (ifs) { getline(ifs, line); ... }

 (object.cpp:18-19, object.h:25-26). `std::getline` first builds a sentry; when
 the stream is no longer good (end of file already reached) the sentry fails,
 the call sets failbit and leaves `line` as it was. So when the file does not
 end with a newline, the last getline of the loop hands the body the previous
 line a second time. `LoopLines` models that loop as written; `Lines` is the
 evidently intended sequence (every line once, as
 `while (std::getline(ifs, line))` would read it), and it is what the loaders
 of this model consume.
 */
module LineReader {
  import opened Tokenizer

  const Newline: char := '\n'

  /** The text not yet extracted and the two stream flags the loop inspects. */
  datatype StreamState = StreamState(unread: string, eof: bool, fail: bool)

  /** A stream freshly opened on a file holding `text`. */
  function Opened(text: string): StreamState
  {
    StreamState(text, false, false)
  }

  /** One `std::getline(stream, line)`: the new state and the new value of `line`. */
  function Getline(st: StreamState, line: string): (StreamState, string)
  {
    if st.eof || st.fail then
      // The sentry fails: failbit is set and `line` is left untouched.
      (st.(fail := true), line)
    else
      var rest := st.unread;
      var i := IndexOf(rest, Newline);
      if i < |rest| then
        // The delimiter is extracted and discarded.
        (StreamState(rest[i + 1..], false, false), rest[..i])
      else if rest == [] then
        // Nothing extracted: end of file and failure; `line` was erased.
        (StreamState([], true, true), [])
      else
        // The last line, closed by the end of the file rather than a newline.
        (StreamState([], true, false), rest)
  }

  /**
   A `std::getline` on a good stream extracts the characters up to the first
   newline, or to the end of the text, and consumes that newline: what it
   returns, the newline and what is left are the old unread text. It fails
   exactly when nothing was left to read.
   */
  lemma GetlineExtractsOneLine(st: StreamState, line: string)
    requires !st.eof && !st.fail
    ensures var (st', line') := Getline(st, line);
      && Newline !in line'
      && (st'.fail <==> st.unread == [])
      && (!st'.eof ==> line' + [Newline] + st'.unread == st.unread)
      && (st'.eof ==> line' == st.unread && st'.unread == [])
  {
    var i := IndexOf(st.unread, Newline);
    if i < |st.unread| {
      assert st.unread == st.unread[..i] + [Newline] + st.unread[i + 1..];
    }
  }

  /** On a stream at end of file or already failed, `std::getline` fails and leaves `line` alone. */
  lemma GetlineAfterEnd(st: StreamState, line: string)
    requires st.eof || st.fail
    ensures Getline(st, line).1 == line && Getline(st, line).0.fail
    ensures Getline(st, line).0.unread == st.unread
  {
  }

  /** The successive values of `line` the body of `while (ifs) { getline(ifs, line); ... }` sees. */
  function ReadLoop(st: StreamState, line: string): seq<string>
    decreases |st.unread|, if st.eof then 0 else 1, if st.fail then 0 else 1
  {
    if st.fail then []
    else
      var (st', line') := Getline(st, line);
      [line'] + ReadLoop(st', line')
  }

  /** The loop of object.cpp and object.h, as written, on a freshly opened file. */
  function LoopLines(text: string): seq<string>
  {
    ReadLoop(Opened(text), [])
  }

  /** The lines `while (std::getline(stream, line))` reads: only the calls that succeed. */
  function GetlineLines(st: StreamState, line: string): seq<string>
    decreases |st.unread|, if st.eof then 0 else 1, if st.fail then 0 else 1
  {
    if st.fail then []
    else
      var (st', line') := Getline(st, line);
      if st'.fail then [] else [line'] + GetlineLines(st', line')
  }

  /**
   The lines of `text`, each exactly once and in order: the intended input of
   the loaders' loop body.
   */
  function Lines(text: string): (lines: seq<string>)
    ensures forall k :: 0 <= k < |lines| ==> Newline !in lines[k]
  {
    SplitTokensLackDelimiter(text, Newline);
    Split(text, Newline)
  }

  /** Rejoining the lines with newlines restores the text, less a final newline. */
  lemma LinesRejoin(text: string)
    ensures Join(Lines(text), Newline) == DropTrailing(text, Newline)
  {
    JoinSplit(text, Newline);
  }

  /** The value the as-written loop sees after the real lines are exhausted. */
  function ExtraLine(rest: string): string
  {
    if rest == [] || EndsWith(rest, Newline) then []
    else var ls := Split(rest, Newline); ls[|ls| - 1]
  }

  /** Splitting at the first newline of `rest`. */
  lemma {:induction false} SplitAtNewline(rest: string)
    requires IndexOf(rest, Newline) < |rest|
    ensures var i := IndexOf(rest, Newline);
      && Split(rest, Newline) == [rest[..i]] + Split(rest[i + 1..], Newline)
      && ExtraLine(rest) == ExtraLine(rest[i + 1..])
  {
    var i := IndexOf(rest, Newline);
    var tail := rest[i + 1..];
    if tail != [] {
      assert EndsWith(rest, Newline) == EndsWith(tail, Newline);
      var ls := Split(tail, Newline);
      assert Split(rest, Newline)[|Split(rest, Newline)| - 1] == ls[|ls| - 1];
    }
  }

  /** A last line without a newline is one token, and the value read again. */
  lemma {:induction false} SplitUnterminated(rest: string)
    requires rest != [] && IndexOf(rest, Newline) == |rest|
    ensures Split(rest, Newline) == [rest]
    ensures ExtraLine(rest) == rest
  {
  }

  /** The as-written loop at the end of the text, or on a last line without newline. */
  lemma {:induction false} ReadLoopLast(rest: string, line: string)
    requires IndexOf(rest, Newline) == |rest|
    ensures ReadLoop(StreamState(rest, false, false), line) == Split(rest, Newline) + [ExtraLine(rest)]
  {
    var st := StreamState(rest, false, false);
    if rest == [] {
      var last := StreamState([], true, true);
      assert Getline(st, line) == (last, []);
      assert ReadLoop(st, line) == [[]] + ReadLoop(last, []);
    } else {
      var atEnd := StreamState([], true, false);
      var failed := StreamState([], true, true);
      assert Getline(st, line) == (atEnd, rest);
      assert Getline(atEnd, rest) == (failed, rest);
      assert ReadLoop(atEnd, rest) == [rest] + ReadLoop(failed, rest);
      SplitUnterminated(rest);
      assert ReadLoop(st, line) == [rest, rest];
    }
  }

  /** One turn of the as-written loop that reads a newline-terminated line. */
  lemma {:induction false} ReadLoopNewline(rest: string, line: string)
    requires IndexOf(rest, Newline) < |rest|
    ensures var i := IndexOf(rest, Newline);
      ReadLoop(StreamState(rest, false, false), line)
        == [rest[..i]] + ReadLoop(StreamState(rest[i + 1..], false, false), rest[..i])
  {
    var i := IndexOf(rest, Newline);
    assert Getline(StreamState(rest, false, false), line) == (StreamState(rest[i + 1..], false, false), rest[..i]);
  }

  /** The lines read before and after the first one, regrouped. */
  lemma Regroup(all: seq<string>, later: seq<string>, first: string, tokens: seq<string>, extra: string, split: seq<string>)
    requires all == [first] + later && later == tokens + [extra] && split == [first] + tokens
    ensures all == split + [extra]
  {
    assert [first] + (tokens + [extra]) == ([first] + tokens) + [extra];
  }

  /** One turn of the as-written loop, given what the loop sees after the first line. */
  lemma ReadLoopStep(rest: string, line: string)
    requires IndexOf(rest, Newline) < |rest|
    requires var i := IndexOf(rest, Newline);
      ReadLoop(StreamState(rest[i + 1..], false, false), rest[..i])
        == Split(rest[i + 1..], Newline) + [ExtraLine(rest[i + 1..])]
    ensures ReadLoop(StreamState(rest, false, false), line) == Split(rest, Newline) + [ExtraLine(rest)]
  {
    var i := IndexOf(rest, Newline);
    var line1, tail := rest[..i], rest[i + 1..];
    var st, next := StreamState(rest, false, false), StreamState(tail, false, false);
    ReadLoopNewline(rest, line);
    SplitAtNewline(rest);
    Regroup(ReadLoop(st, line), ReadLoop(next, line1), line1, Split(tail, Newline), ExtraLine(tail), Split(rest, Newline));
  }

  /** From any good state, the as-written loop sees the remaining lines and then one more value. */
  lemma {:induction false} ReadLoopFrom(rest: string, line: string)
    ensures ReadLoop(StreamState(rest, false, false), line) == Split(rest, Newline) + [ExtraLine(rest)]
    decreases |rest|
  {
    var i := IndexOf(rest, Newline);
    if i < |rest| {
      ReadLoopFrom(rest[i + 1..], rest[..i]);
      ReadLoopStep(rest, line);
    } else {
      ReadLoopLast(rest, line);
    }
  }

  /**
   The loop as written sees every line of `Lines(text)` in order and then one
   more value: the empty string when the text is empty or ends with a newline
   (`ObjParse.AsWrittenAgreesWhenTerminated` shows the loaders then build the
   same pools), and the final line once more otherwise.
   */
  lemma LoopSeesLinesThenOneMore(text: string)
    ensures LoopLines(text) == Lines(text) + [ExtraLine(text)]
    ensures !EndsWith(text, Newline) && text != [] ==> ExtraLine(text) == Lines(text)[|Lines(text)| - 1]
  {
    ReadLoopFrom(text, []);
  }

  /** A concrete input: a file whose only line is not newline-terminated is read twice. */
  lemma UnterminatedLineReadTwice()
    ensures LoopLines("v 1 2 3") == ["v 1 2 3", "v 1 2 3"]
    ensures Lines("v 1 2 3") == ["v 1 2 3"]
  {
    var text := "v 1 2 3";
    assert IndexOf(text, Newline) == |text|;
    SplitUnterminated(text);
    LoopSeesLinesThenOneMore(text);
  }

  /** The corrected loop at the end of the text, or on a last line without newline. */
  lemma {:induction false} GetlineLinesLast(rest: string, line: string)
    requires IndexOf(rest, Newline) == |rest|
    ensures GetlineLines(StreamState(rest, false, false), line) == Split(rest, Newline)
  {
    var st := StreamState(rest, false, false);
    if rest == [] {
      assert Getline(st, line) == (StreamState([], true, true), []);
    } else {
      var atEnd := StreamState([], true, false);
      assert Getline(st, line) == (atEnd, rest);
      assert Getline(atEnd, rest) == (atEnd.(fail := true), rest);
      assert GetlineLines(atEnd, rest) == [];
      SplitUnterminated(rest);
    }
  }

  /** From any good state, `while (std::getline(...))` reads exactly the remaining lines. */
  lemma {:induction false} GetlineLinesFrom(rest: string, line: string)
    ensures GetlineLines(StreamState(rest, false, false), line) == Split(rest, Newline)
    decreases |rest|
  {
    var i := IndexOf(rest, Newline);
    if i < |rest| {
      var line1, tail := rest[..i], rest[i + 1..];
      assert Getline(StreamState(rest, false, false), line) == (StreamState(tail, false, false), line1);
      assert GetlineLines(StreamState(rest, false, false), line)
          == [line1] + GetlineLines(StreamState(tail, false, false), line1);
      GetlineLinesFrom(tail, line1);
      SplitAtNewline(rest);
    } else {
      GetlineLinesLast(rest, line);
    }
  }

  /** The corrected loop reads exactly `Lines(text)`: every line once. */
  lemma CorrectedLoopReadsEachLineOnce(text: string)
    ensures GetlineLines(Opened(text), []) == Lines(text)
  {
    GetlineLinesFrom(text, []);
  }
}

=== FILE: little_endian.dfy ===
/**
 Little-endian integers in a byte buffer, as read by the casts
 `*(int32_t*)(&header[offset])` of the BMP loaders on a little-endian host:
 the unsigned value of a run of bytes, least significant byte first, and its
 32-bit two's-complement reading.
 */
module LittleEndian {

  /** An octet of the file. */
  newtype byte = b: int | 0 <= b < 256

  /** 256 to the power `n`: one more than the largest value of `n` bytes. */
  function Pow256(n: nat): (p: nat)
    ensures p >= 1
  {
    if n == 0 then 1 else 256 * Pow256(n - 1)
  }

  /** The unsigned value of `bytes`, least significant byte first. */
  function Uint(bytes: seq<byte>): (n: nat)
    ensures n < Pow256(|bytes|)
    decreases |bytes|
  {
    if bytes == [] then 0 else bytes[0] as nat + 256 * Uint(bytes[1..])
  }

  /** The `width` bytes of `n`, least significant first. */
  function UintBytes(n: nat, width: nat): (bytes: seq<byte>)
    requires n < Pow256(width)
    ensures |bytes| == width
    decreases width
  {
    if width == 0 then [] else [(n % 256) as byte] + UintBytes(n / 256, width - 1)
  }

  /** Decoding the encoding of `n` gives `n` back. */
  lemma {:induction false} UintOfBytes(n: nat, width: nat)
    requires n < Pow256(width)
    ensures Uint(UintBytes(n, width)) == n
    decreases width
  {
    if width > 0 {
      var low, high := n % 256, n / 256;
      LowByte(n);
      var rest := UintBytes(high, width - 1);
      assert UintBytes(n, width) == [low as byte] + rest;
      UintCons(low as byte, rest);
      UintOfBytes(high, width - 1);
    }
  }

  /** A byte in front contributes its value; the rest is worth 256 times as much. */
  lemma UintCons(b: byte, rest: seq<byte>)
    ensures Uint([b] + rest) == b as nat + 256 * Uint(rest)
  {
    assert ([b] + rest)[1..] == rest;
  }

  /** `n` is its low byte plus 256 times the rest. */
  lemma LowByte(n: nat)
    ensures n % 256 < 256 && n == n % 256 + 256 * (n / 256)
  {
  }

  /** Encoding the value of `bytes` at their own width gives the bytes back. */
  lemma {:induction false} BytesOfUint(bytes: seq<byte>)
    ensures UintBytes(Uint(bytes), |bytes|) == bytes
    decreases |bytes|
  {
    if bytes != [] {
      var low, high := bytes[0] as nat, Uint(bytes[1..]);
      SplitLowByte(low, high);
      BytesOfUint(bytes[1..]);
      assert UintBytes(Uint(bytes), |bytes|) == [low as byte] + UintBytes(high, |bytes| - 1);
    }
  }

  /** The low byte and the rest of `low + 256 * high` are `low` and `high`. */
  lemma SplitLowByte(low: nat, high: nat)
    requires low < 256
    ensures (low + 256 * high) % 256 == low && (low + 256 * high) / 256 == high
  {
  }

  const Int32Min: int := -0x8000_0000
  const Int32Max: int := 0x7FFF_FFFF
  const Two32: nat := 0x1_0000_0000

  /** The range of `int32_t`. */
  predicate IsInt32(v: int) {
    Int32Min <= v <= Int32Max
  }

  /** The two's-complement reading of a 32-bit pattern. */
  function ToInt32(u: nat): (v: int)
    requires u < Two32
    ensures IsInt32(v)
    ensures v >= 0 <==> u <= Int32Max
    ensures v % Two32 == u
  {
    if u <= Int32Max then u else u - Two32
  }

  /** The 32-bit pattern of an `int32_t`. */
  function FromInt32(v: int): (u: nat)
    requires IsInt32(v)
    ensures u < Two32 && ToInt32(u) == v
  {
    if v >= 0 then v else v + Two32
  }

  /** `*(int32_t*)(&bytes[offset])` on a little-endian host. */
  function Int32At(bytes: seq<byte>, offset: nat): (v: int)
    requires offset + 4 <= |bytes|
    ensures IsInt32(v)
  {
    assert Pow256(4) == Two32;
    ToInt32(Uint(bytes[offset..offset + 4]))
  }

  /** The four little-endian bytes of an `int32_t`. */
  function Int32Bytes(v: int): (bytes: seq<byte>)
    requires IsInt32(v)
    ensures |bytes| == 4
  {
    assert Pow256(4) == Two32;
    UintBytes(FromInt32(v), 4)
  }

  /** The field whose four bytes are those written for `v` reads as `v`. */
  lemma Int32Field(bytes: seq<byte>, offset: nat, v: int)
    requires IsInt32(v) && offset + 4 <= |bytes| && bytes[offset..offset + 4] == Int32Bytes(v)
    ensures Int32At(bytes, offset) == v
  {
    assert Pow256(4) == Two32;
    UintOfBytes(FromInt32(v), 4);
  }

  /** Reading back the bytes written for `v` gives `v`, wherever they are placed. */
  lemma Int32RoundTrip(v: int, before: seq<byte>, after: seq<byte>)
    requires IsInt32(v)
    ensures Int32At(before + Int32Bytes(v) + after, |before|) == v
  {
    var bytes := before + Int32Bytes(v) + after;
    assert bytes[|before|..|before| + 4] == Int32Bytes(v);
    Int32Field(bytes, |before|, v);
  }

  /** Writing back the value read from four bytes restores them. */
  lemma Int32BytesOfRead(bytes: seq<byte>, offset: nat)
    requires offset + 4 <= |bytes|
    ensures Int32Bytes(Int32At(bytes, offset)) == bytes[offset..offset + 4]
  {
    var field := bytes[offset..offset + 4];
    assert Pow256(4) == Two32;
    BytesOfUint(field);
  }
}

=== FILE: obj_parse.dfy ===
/**
 The line-by-line part of the two Wavefront OBJ loaders, `object::object`
 (object.cpp) and `Object::Object` (object.h): classify each line by its
 prefix, keep it only when its token count is one the loader accepts, and
 append to the position, texture-coordinate and normal pools or, for a face,
 to the three index arrays. The two loaders differ only in the token counts
 they accept and in whether normals are normalised; `Variant` selects which.

 Coordinates are opaque: `C` is the loaders' `float`, and `std::stof`,
 `glm::normalize` and the tangent arithmetic are supplied as a `Geometry`.
 */
module ObjParse {
  import opened Tokenizer
  import opened Decimal
  import LineReader

  datatype Vec2<C> = Vec2(x: C, y: C)
  datatype Vec3<C> = Vec3(x: C, y: C, z: C)

  /** The three positions and three texture coordinates of one face. */
  datatype Triangle<C> = Triangle(v0: Vec3<C>, v1: Vec3<C>, v2: Vec3<C>, uv0: Vec2<C>, uv1: Vec2<C>, uv2: Vec2<C>)

  /** A tangent and a bitangent. */
  datatype Basis<C> = Basis(tangent: Vec3<C>, bitangent: Vec3<C>)

  /**
   The floating-point operations of the loaders, left abstract:
   `parseFloat` is `std::stof`; `normalize` is `glm::normalize`; `solve` is the
   linear solve for a triangle's tangent and bitangent, whose flag says whether
   the reciprocal determinant `r` is negated first; `orthogonalize(n, t, b)`
   is the Gram-Schmidt step of `t` against `n` followed by the handedness
   correction against `b`.
   */
  datatype Geometry<!C> = Geometry(
    parseFloat: string -> C,
    normalize: Vec3<C> -> Vec3<C>,
    solve: (Triangle<C>, bool) -> Basis<C>,
    orthogonalize: (Vec3<C>, Vec3<C>, Vec3<C>) -> Vec3<C>)

  /** What opening the OBJ file yields: nothing (`!ifs`), or its text. */
  datatype ObjFile = Unopenable | Readable(text: string)

  /** Which loader: class `object` of object.cpp or class `Object` of object.h. */
  datatype Variant = CppObject | HeaderObject

  /** The blank between a line's tokens: `splitString`'s default in object.h, assumed the same for object.cpp's `split_string`. */
  const TokenDelim: char := ' '
  const EntryDelim: char := '/'

  /** Lines shorter than this are skipped before any other test. */
  const MinLineLength: nat := 3

  datatype LineKind = VertexLine | UvLine | NormalLine | FaceLine | OtherLine

  /** The prefix tests, in the order the loaders apply them. */
  function Classify(line: string): LineKind
  {
    if |line| < MinLineLength then OtherLine
    else if line[0] == 'v' && line[1] == ' ' then VertexLine
    else if line[0] == 'v' && line[1] == 't' && line[2] == ' ' then UvLine
    else if line[0] == 'v' && line[1] == 'n' && line[2] == ' ' then NormalLine
    else if line[0] == 'f' && line[1] == ' ' then FaceLine
    else OtherLine
  }

  /** The blank-separated tokens of a line; the first is the keyword. */
  function Tokens(line: string): seq<string>
  {
    Split(line, TokenDelim)
  }

  /** The token counts each loader accepts for each kind of line. */
  predicate AcceptsCount(variant: Variant, kind: LineKind, n: nat)
  {
    match kind
    case VertexLine => n == 4 || (variant == CppObject && n == 5)
    case UvLine => n == 3 || (variant == CppObject && n == 4)
    case NormalLine => n == 4
    case FaceLine => n == 4
    case OtherLine => false
  }

  /** The line contributes to the pools or index arrays. */
  predicate Accepted(variant: Variant, line: string)
  {
    AcceptsCount(variant, Classify(line), |Tokens(line)|)
  }

  /** A face corner `v/vt/vn` whose three entries `std::stoi` reads without throwing. */
  predicate CornerWellFormed(token: string)
  {
    var entries := Split(token, EntryDelim);
    |entries| >= 3 && FitsInt(entries[0]) && FitsInt(entries[1]) && FitsInt(entries[2])
  }

  /** Face lines of four tokens carry three well-formed corners; other lines are unconstrained. */
  predicate WellFormed(line: string)
  {
    var tokens := Tokens(line);
    Classify(line) == FaceLine && |tokens| == 4 ==>
      CornerWellFormed(tokens[1]) && CornerWellFormed(tokens[2]) && CornerWellFormed(tokens[3])
  }

  predicate AllWellFormed(lines: seq<string>)
  {
    forall k :: 0 <= k < |lines| ==> WellFormed(lines[k])
  }

  /** The zero-based indices of one face corner. */
  datatype Corner = Corner(vertex: int, uv: int, normal: int)

  /** The OBJ indices of a corner, each less one. */
  function ParseCorner(token: string): Corner
    requires CornerWellFormed(token)
  {
    var entries := Split(token, EntryDelim);
    Corner(Value(entries[0]) - 1, Value(entries[1]) - 1, Value(entries[2]) - 1)
  }

  /** The three corners of an accepted face line. */
  function FaceCorners(line: string): (corners: seq<Corner>)
    requires Classify(line) == FaceLine && |Tokens(line)| == 4 && WellFormed(line)
    ensures |corners| == 3
  {
    var tokens := Tokens(line);
    [ParseCorner(tokens[1]), ParseCorner(tokens[2]), ParseCorner(tokens[3])]
  }

  /** The pools and index arrays built while reading. */
  datatype Pools<C> = Pools(
    vertices: seq<Vec3<C>>,
    uvs: seq<Vec2<C>>,
    normals: seq<Vec3<C>>,
    vertexIndices: seq<int>,
    uvIndices: seq<int>,
    normalIndices: seq<int>)

  function NoPools<C>(): Pools<C>
  {
    Pools([], [], [], [], [], [])
  }

  /** The position of a `v` line: tokens 1 to 3 (a fourth coordinate is ignored). */
  function VertexOf<C>(geo: Geometry<C>, line: string): Vec3<C>
    requires |Tokens(line)| >= 4
  {
    var tokens := Tokens(line);
    Vec3(geo.parseFloat(tokens[1]), geo.parseFloat(tokens[2]), geo.parseFloat(tokens[3]))
  }

  /** The texture coordinate of a `vt` line: tokens 1 and 2. */
  function UvOf<C>(geo: Geometry<C>, line: string): Vec2<C>
    requires |Tokens(line)| >= 3
  {
    var tokens := Tokens(line);
    Vec2(geo.parseFloat(tokens[1]), geo.parseFloat(tokens[2]))
  }

  /** The normal of a `vn` line; object.cpp normalises it, object.h keeps it as read. */
  function NormalOf<C>(variant: Variant, geo: Geometry<C>, line: string): Vec3<C>
    requires |Tokens(line)| >= 4
  {
    var tokens := Tokens(line);
    var n := Vec3(geo.parseFloat(tokens[1]), geo.parseFloat(tokens[2]), geo.parseFloat(tokens[3]));
    if variant == CppObject then geo.normalize(n) else n
  }

  /** One turn of the reading loop. */
  function AddLine<C>(variant: Variant, geo: Geometry<C>, p: Pools<C>, line: string): Pools<C>
    requires WellFormed(line)
  {
    if !Accepted(variant, line) then p
    else match Classify(line)
      case VertexLine => p.(vertices := p.vertices + [VertexOf(geo, line)])
      case UvLine => p.(uvs := p.uvs + [UvOf(geo, line)])
      case NormalLine => p.(normals := p.normals + [NormalOf(variant, geo, line)])
      case FaceLine =>
        var c := FaceCorners(line);
        p.(vertexIndices := p.vertexIndices + [c[0].vertex, c[1].vertex, c[2].vertex],
           uvIndices := p.uvIndices + [c[0].uv, c[1].uv, c[2].uv],
           normalIndices := p.normalIndices + [c[0].normal, c[1].normal, c[2].normal])
  }

  /** The pools after reading `lines` in order. */
  function ParseLines<C>(variant: Variant, geo: Geometry<C>, lines: seq<string>): (r: Pools<C>)
    requires AllWellFormed(lines)
    ensures Aligned(r)
    ensures |r.vertexIndices| == 3 * |Kept(variant, FaceLine, lines)|
    decreases |lines|
  {
    if lines == [] then NoPools()
    else
      var q := ParseLines(variant, geo, lines[..|lines| - 1]);
      AddLineIndices(variant, geo, q, lines[|lines| - 1]);
      AddLine(variant, geo, q, lines[|lines| - 1])
  }

  /** One turn of the loop keeps the index arrays aligned, adding three entries exactly for an accepted face. */
  lemma AddLineIndices<C>(variant: Variant, geo: Geometry<C>, p: Pools<C>, line: string)
    requires WellFormed(line) && Aligned(p)
    ensures var r := AddLine(variant, geo, p, line);
      && Aligned(r)
      && |r.vertexIndices| == |p.vertexIndices| + if Accepted(variant, line) && Classify(line) == FaceLine then 3 else 0
  {
  }

  /** Every index refers to an element of its pool (the loaders do not check this). */
  predicate InRange<C>(p: Pools<C>)
  {
    && (forall k :: 0 <= k < |p.vertexIndices| ==> 0 <= p.vertexIndices[k] < |p.vertices|)
    && (forall k :: 0 <= k < |p.uvIndices| ==> 0 <= p.uvIndices[k] < |p.uvs|)
    && (forall k :: 0 <= k < |p.normalIndices| ==> 0 <= p.normalIndices[k] < |p.normals|)
  }

  /** The index arrays have one entry per face corner, three per face. */
  predicate Aligned<C>(p: Pools<C>)
  {
    |p.vertexIndices| == |p.uvIndices| == |p.normalIndices| && |p.vertexIndices| % 3 == 0
  }

  /** The accepted lines of one kind, in file order. */
  function Kept(variant: Variant, kind: LineKind, lines: seq<string>): (r: seq<string>)
    ensures forall k :: 0 <= k < |r| ==> Accepted(variant, r[k]) && Classify(r[k]) == kind
    ensures forall k :: 0 <= k < |r| ==> r[k] in lines
    decreases |lines|
  {
    if lines == [] then []
    else
      var last := lines[|lines| - 1];
      Kept(variant, kind, lines[..|lines| - 1])
        + (if Accepted(variant, last) && Classify(last) == kind then [last] else [])
  }

  /** The position written on the `j`-th accepted `v` line. */
  function KeptVertex<C>(variant: Variant, geo: Geometry<C>, lines: seq<string>, j: nat): Vec3<C>
    requires j < |Kept(variant, VertexLine, lines)|
  {
    VertexOf(geo, Kept(variant, VertexLine, lines)[j])
  }

  /** The texture coordinate written on the `j`-th accepted `vt` line. */
  function KeptUv<C>(variant: Variant, geo: Geometry<C>, lines: seq<string>, j: nat): Vec2<C>
    requires j < |Kept(variant, UvLine, lines)|
  {
    UvOf(geo, Kept(variant, UvLine, lines)[j])
  }

  /** The normal written on the `j`-th accepted `vn` line, as the loader stores it. */
  function KeptNormal<C>(variant: Variant, geo: Geometry<C>, lines: seq<string>, j: nat): Vec3<C>
    requires j < |Kept(variant, NormalLine, lines)|
  {
    NormalOf(variant, geo, Kept(variant, NormalLine, lines)[j])
  }

  /** The kind of line a keyword introduces. */
  function KeywordKind(keyword: string): LineKind
  {
    if keyword == "v" then VertexLine
    else if keyword == "vt" then UvLine
    else if keyword == "vn" then NormalLine
    else if keyword == "f" then FaceLine
    else OtherLine
  }

  /**
   On lines of at least three characters the prefix tests amount to reading
   the first blank-separated token as the keyword.
   */
  lemma ClassifyByKeyword(line: string)
    requires |line| >= MinLineLength
    ensures Tokens(line) != [] && Classify(line) == KeywordKind(Tokens(line)[0])
  {
    var i := IndexOf(line, TokenDelim);
    assert Tokens(line)[0] == line[..i];
  }

  /**
   One turn of the loop only appends: every pool and index array keeps its
   old contents as a prefix, and an accepted line grows exactly one pool by
   one element or the three index arrays by three.
   */
  lemma AddLineOnlyAppends<C>(variant: Variant, geo: Geometry<C>, p: Pools<C>, line: string)
    requires WellFormed(line)
    ensures var r := AddLine(variant, geo, p, line);
      && p.vertices <= r.vertices && p.uvs <= r.uvs && p.normals <= r.normals
      && p.vertexIndices <= r.vertexIndices && p.uvIndices <= r.uvIndices && p.normalIndices <= r.normalIndices
    ensures var r := AddLine(variant, geo, p, line);
      var grown := (|r.vertices| - |p.vertices|) + (|r.uvs| - |p.uvs|) + (|r.normals| - |p.normals|)
        + (|r.vertexIndices| - |p.vertexIndices|) / 3;
      grown == if Accepted(variant, line) then 1 else 0
  {
  }

  /** A line shorter than three characters is never accepted, so it changes nothing. */
  lemma ShortLineSkipped<C>(variant: Variant, geo: Geometry<C>, p: Pools<C>, line: string)
    requires |line| < MinLineLength
    ensures !Accepted(variant, line)
    ensures AddLine(variant, geo, p, line) == p
  {
  }

  /** A line with a token count its loader does not accept leaves every pool and index array as it was. */
  lemma RejectedLineChangesNothing<C>(variant: Variant, geo: Geometry<C>, p: Pools<C>, line: string)
    requires WellFormed(line) && !Accepted(variant, line)
    ensures AddLine(variant, geo, p, line) == p
  {
  }

  /**
   object.h accepts a subset of what object.cpp accepts; the difference is
   exactly the `v` lines of five tokens and the `vt` lines of four.
   */
  lemma HeaderStricterThanCpp(line: string)
    ensures Accepted(HeaderObject, line) ==> Accepted(CppObject, line)
    ensures Accepted(CppObject, line) && !Accepted(HeaderObject, line) <==>
      (Classify(line) == VertexLine && |Tokens(line)| == 5) || (Classify(line) == UvLine && |Tokens(line)| == 4)
  {
  }

  /** An accepted face appends three zero-based indices to each index array and changes no pool. */
  lemma FaceAppendsThreeCorners<C>(variant: Variant, geo: Geometry<C>, p: Pools<C>, line: string)
    requires WellFormed(line) && Accepted(variant, line) && Classify(line) == FaceLine
    ensures var r := AddLine(variant, geo, p, line);
      var c := FaceCorners(line);
      && r.vertices == p.vertices && r.uvs == p.uvs && r.normals == p.normals
      && r.vertexIndices == p.vertexIndices + [c[0].vertex, c[1].vertex, c[2].vertex]
      && r.uvIndices == p.uvIndices + [c[0].uv, c[1].uv, c[2].uv]
      && r.normalIndices == p.normalIndices + [c[0].normal, c[1].normal, c[2].normal]
  {
  }

  /** A corner written as `a/b/c` with 1-based OBJ indices reads back as the 0-based `a-1`, `b-1`, `c-1`. */
  lemma {:induction false} CornerIsOneBased(a: nat, b: nat, c: nat)
    requires a <= IntMax && b <= IntMax && c <= IntMax
    ensures var token := Join([Render(a), Render(b), Render(c)], EntryDelim);
      CornerWellFormed(token) && ParseCorner(token) == Corner(a - 1, b - 1, c - 1)
  {
    var entries := [Render(a), Render(b), Render(c)];
    NumeralHasNoOtherChar(Render(a), EntryDelim);
    NumeralHasNoOtherChar(Render(b), EntryDelim);
    NumeralHasNoOtherChar(Render(c), EntryDelim);
    SplitJoin(entries, EntryDelim);
    ValueOfRender(a);
    ValueOfRender(b);
    ValueOfRender(c);
  }

  /** One turn of the loop appends to the positions exactly when the line is an accepted `v` line. */
  lemma AddLineVertices<C>(variant: Variant, geo: Geometry<C>, p: Pools<C>, line: string)
    requires WellFormed(line)
    ensures AddLine(variant, geo, p, line).vertices
      == p.vertices + if Accepted(variant, line) && Classify(line) == VertexLine then [VertexOf(geo, line)] else []
  {
  }

  /** One turn of the loop appends to the texture coordinates exactly when the line is an accepted `vt` line. */
  lemma AddLineUvs<C>(variant: Variant, geo: Geometry<C>, p: Pools<C>, line: string)
    requires WellFormed(line)
    ensures AddLine(variant, geo, p, line).uvs
      == p.uvs + if Accepted(variant, line) && Classify(line) == UvLine then [UvOf(geo, line)] else []
  {
  }

  /** One turn of the loop appends to the normals exactly when the line is an accepted `vn` line. */
  lemma AddLineNormals<C>(variant: Variant, geo: Geometry<C>, p: Pools<C>, line: string)
    requires WellFormed(line)
    ensures AddLine(variant, geo, p, line).normals
      == p.normals + if Accepted(variant, line) && Classify(line) == NormalLine then [NormalOf(variant, geo, line)] else []
  {
  }

  /** The k-th accepted `v` line is `vertices[k]`. */
  lemma {:induction false} VerticesInFileOrder<C>(variant: Variant, geo: Geometry<C>, lines: seq<string>)
    requires AllWellFormed(lines)
    ensures var r := ParseLines(variant, geo, lines);
      var kept := Kept(variant, VertexLine, lines);
      && |r.vertices| == |kept|
      && forall k :: 0 <= k < |kept| ==> r.vertices[k] == VertexOf(geo, kept[k])
    decreases |lines|
  {
    if lines != [] {
      var init := lines[..|lines| - 1];
      VerticesInFileOrder(variant, geo, init);
      AddLineVertices(variant, geo, ParseLines(variant, geo, init), lines[|lines| - 1]);
    }
  }

  /** The k-th accepted `vt` line is `uvs[k]`. */
  lemma {:induction false} UvsInFileOrder<C>(variant: Variant, geo: Geometry<C>, lines: seq<string>)
    requires AllWellFormed(lines)
    ensures var r := ParseLines(variant, geo, lines);
      var kept := Kept(variant, UvLine, lines);
      && |r.uvs| == |kept|
      && forall k :: 0 <= k < |kept| ==> r.uvs[k] == UvOf(geo, kept[k])
    decreases |lines|
  {
    if lines != [] {
      var init := lines[..|lines| - 1];
      UvsInFileOrder(variant, geo, init);
      AddLineUvs(variant, geo, ParseLines(variant, geo, init), lines[|lines| - 1]);
    }
  }

  /** The k-th accepted `vn` line is `normals[k]` (normalised by object.cpp only). */
  lemma {:induction false} NormalsInFileOrder<C>(variant: Variant, geo: Geometry<C>, lines: seq<string>)
    requires AllWellFormed(lines)
    ensures var r := ParseLines(variant, geo, lines);
      var kept := Kept(variant, NormalLine, lines);
      && |r.normals| == |kept|
      && forall k :: 0 <= k < |kept| ==> r.normals[k] == NormalOf(variant, geo, kept[k])
    decreases |lines|
  {
    if lines != [] {
      var init := lines[..|lines| - 1];
      NormalsInFileOrder(variant, geo, init);
      AddLineNormals(variant, geo, ParseLines(variant, geo, init), lines[|lines| - 1]);
    }
  }

  /** An accepted face in `lines` is well-formed. */
  lemma KeptFacesWellFormed(variant: Variant, lines: seq<string>, k: nat)
    requires AllWellFormed(lines) && k < |Kept(variant, FaceLine, lines)|
    ensures WellFormed(Kept(variant, FaceLine, lines)[k])
  {
    var line := Kept(variant, FaceLine, lines)[k];
    assert line in lines;
    var j :| 0 <= j < |lines| && lines[j] == line;
  }

  /** The corner of position `i` in the index arrays: face `i / 3`, corner `i % 3`. */
  function CornerAt(variant: Variant, lines: seq<string>, i: nat): Corner
    requires AllWellFormed(lines) && i < 3 * |Kept(variant, FaceLine, lines)|
  {
    KeptFacesWellFormed(variant, lines, i / 3);
    FaceCorners(Kept(variant, FaceLine, lines)[i / 3])[i % 3]
  }

  /** Dropping the last line keeps the remaining lines well-formed. */
  lemma WellFormedPrefix(lines: seq<string>)
    requires AllWellFormed(lines) && lines != []
    ensures AllWellFormed(lines[..|lines| - 1])
  {
    var init := lines[..|lines| - 1];
    forall k | 0 <= k < |init| ensures WellFormed(init[k]) {
      assert init[k] == lines[k];
    }
  }

  /** Corners of faces read before the last line are not affected by it. */
  lemma CornerAtPrefix(variant: Variant, lines: seq<string>, i: nat)
    requires AllWellFormed(lines) && lines != []
    requires AllWellFormed(lines[..|lines| - 1])
    requires i < 3 * |Kept(variant, FaceLine, lines[..|lines| - 1])|
    ensures i < 3 * |Kept(variant, FaceLine, lines)|
    ensures CornerAt(variant, lines, i) == CornerAt(variant, lines[..|lines| - 1], i)
  {
    var faces := Kept(variant, FaceLine, lines);
    var faces0 := Kept(variant, FaceLine, lines[..|lines| - 1]);
    assert faces[i / 3] == faces0[i / 3];
  }

  /** The corners of an accepted last face line sit at the three positions after the earlier ones. */
  lemma CornerAtLast(variant: Variant, lines: seq<string>, i: nat)
    requires AllWellFormed(lines) && lines != []
    requires AllWellFormed(lines[..|lines| - 1])
    requires var last := lines[|lines| - 1]; Accepted(variant, last) && Classify(last) == FaceLine
    requires var n := 3 * |Kept(variant, FaceLine, lines[..|lines| - 1])|; n <= i < n + 3
    ensures i < 3 * |Kept(variant, FaceLine, lines)|
    ensures var n := 3 * |Kept(variant, FaceLine, lines[..|lines| - 1])|;
      WellFormed(lines[|lines| - 1]) &&
      CornerAt(variant, lines, i) == FaceCorners(lines[|lines| - 1])[i - n]
  {
    var faces := Kept(variant, FaceLine, lines);
    var faces0 := Kept(variant, FaceLine, lines[..|lines| - 1]);
    var n := 3 * |faces0|;
    assert faces[|faces0|] == lines[|lines| - 1];
    assert i / 3 == |faces0|;
    assert i % 3 == i - n;
  }

  /** Position `i` of the index arrays holds the indices of `CornerAt(variant, lines, i)`. */
  lemma {:induction false} FaceIndexAt<C>(variant: Variant, geo: Geometry<C>, lines: seq<string>, i: nat)
    requires AllWellFormed(lines) && i < |ParseLines(variant, geo, lines).vertexIndices|
    ensures var r := ParseLines(variant, geo, lines);
      var c := CornerAt(variant, lines, i);
      r.vertexIndices[i] == c.vertex && r.uvIndices[i] == c.uv && r.normalIndices[i] == c.normal
    decreases |lines|
  {
    var init := lines[..|lines| - 1];
    var last := lines[|lines| - 1];
    WellFormedPrefix(lines);
    var p := ParseLines(variant, geo, init);
    var r := ParseLines(variant, geo, lines);
    assert r == AddLine(variant, geo, p, last);
    var n := |p.vertexIndices|;
    var face := Accepted(variant, last) && Classify(last) == FaceLine;
    if face {
      FaceAppendsThreeCorners(variant, geo, p, last);
    } else {
      assert r.vertexIndices == p.vertexIndices && r.uvIndices == p.uvIndices && r.normalIndices == p.normalIndices;
    }
    if i < n {
      FaceIndexAt(variant, geo, init, i);
      CornerAtPrefix(variant, lines, i);
      assert r.vertexIndices[i] == p.vertexIndices[i] && r.uvIndices[i] == p.uvIndices[i]
        && r.normalIndices[i] == p.normalIndices[i];
    } else {
      CornerAtLast(variant, lines, i);
      var cs := FaceCorners(last);
      var c := cs[i - n];
      if i == n {
        assert c == cs[0];
      } else if i == n + 1 {
        assert c == cs[1];
      } else {
        assert c == cs[2];
      }
    }
  }

  /**
   Each accepted face contributes three consecutive entries to each index
   array, in file order, each the corner's OBJ index less one.
   */
  lemma FaceIndicesInFileOrder<C>(variant: Variant, geo: Geometry<C>, lines: seq<string>)
    requires AllWellFormed(lines)
    ensures var r := ParseLines(variant, geo, lines);
      var faces := Kept(variant, FaceLine, lines);
      && |r.vertexIndices| == 3 * |faces|
      && forall i :: 0 <= i < |r.vertexIndices| ==>
           && r.vertexIndices[i] == CornerAt(variant, lines, i).vertex
           && r.uvIndices[i] == CornerAt(variant, lines, i).uv
           && r.normalIndices[i] == CornerAt(variant, lines, i).normal
  {
    forall i | 0 <= i < |ParseLines(variant, geo, lines).vertexIndices| {
      FaceIndexAt(variant, geo, lines, i);
    }
  }

  /**
   The loop as written, on a file whose last line has no newline, runs the
   body on that line twice: its pools are those of the intended loop with the
   last line added once more, so an accepted final face is stored twice.
   */
  lemma AsWrittenRepeatsLastLine<C>(variant: Variant, geo: Geometry<C>, text: string)
    requires text != [] && !EndsWith(text, LineReader.Newline)
    requires AllWellFormed(LineReader.Lines(text))
    ensures var lines := LineReader.Lines(text);
      var last := lines[|lines| - 1];
      && AllWellFormed(LineReader.LoopLines(text))
      && ParseLines(variant, geo, LineReader.LoopLines(text)) == AddLine(variant, geo, ParseLines(variant, geo, lines), last)
      && (Accepted(variant, last) && Classify(last) == FaceLine ==>
            |ParseLines(variant, geo, LineReader.LoopLines(text)).vertexIndices|
              == |ParseLines(variant, geo, lines).vertexIndices| + 3)
  {
    var lines := LineReader.Lines(text);
    LineReader.LoopSeesLinesThenOneMore(text);
    var last := lines[|lines| - 1];
    var all := lines + [last];
    assert LineReader.LoopLines(text) == all;
    assert all[..|all| - 1] == lines;
    assert forall k :: 0 <= k < |all| ==> WellFormed(all[k]) by {
      forall k | 0 <= k < |all| ensures WellFormed(all[k]) {
        if k < |lines| {
          assert all[k] == lines[k];
        } else {
          assert all[k] == lines[|lines| - 1];
        }
      }
    }
  }

  /**
   On a file that is empty or ends with a newline, the extra value the loop
   as written hands over is the empty line, which the loaders skip: the loop
   as written and the intended one build the same pools.
   */
  lemma AsWrittenAgreesWhenTerminated<C>(variant: Variant, geo: Geometry<C>, text: string)
    requires text == [] || EndsWith(text, LineReader.Newline)
    requires AllWellFormed(LineReader.Lines(text))
    ensures AllWellFormed(LineReader.LoopLines(text))
    ensures ParseLines(variant, geo, LineReader.LoopLines(text)) == ParseLines(variant, geo, LineReader.Lines(text))
  {
    var lines := LineReader.Lines(text);
    LineReader.LoopSeesLinesThenOneMore(text);
    var all := lines + [LineReader.ExtraLine(text)];
    assert LineReader.ExtraLine(text) == [];
    assert all[..|all| - 1] == lines;
    assert forall k :: 0 <= k < |all| ==> WellFormed(all[k]) by {
      forall k | 0 <= k < |all| ensures WellFormed(all[k]) {
        if k < |lines| {
          assert all[k] == lines[k];
        }
      }
    }
    ShortLineSkipped(variant, geo, ParseLines(variant, geo, lines), []);
  }

  /**
   The inputs a loader handles without undefined behaviour or an exception:
   every face corner is a plain numeral and every index lands in its pool.
   */
  predicate Loadable<C>(variant: Variant, geo: Geometry<C>, text: string)
  {
    var lines := LineReader.Lines(text);
    AllWellFormed(lines) && InRange(ParseLines(variant, geo, lines))
  }
}

=== FILE: object_cpp.dfy ===
/**
 Class `object` of object.cpp: reads an OBJ file and keeps one position,
 texture coordinate, normal, tangent and bitangent per face corner. Its
 accessors `vertexes()`, `uvs()`, `normals()`, `tangents()` and
 `bitangents()` return the fields of `Object` unchanged.
 */
module ObjectCpp {
  import opened ObjParse
  import opened Deindexing
  import opened TangentFrames
  import LineReader
  import Tokenizer

  datatype Object<C> = Object(
    vertexes: seq<Vec3<C>>,
    uvs: seq<Vec2<C>>,
    normals: seq<Vec3<C>>,
    tangents: seq<Vec3<C>>,
    bitangents: seq<Vec3<C>>)

  /**
   The pools and index arrays object.cpp builds from a readable file, each line
   read once, as the intended reading loop does. `AsWrittenRepeatsLastFace`
   states what the loop as written changes.
   */
  function Parsed<C>(geo: Geometry<C>, text: string): Pools<C>
    requires AllWellFormed(LineReader.Lines(text))
  {
    ParseLines(CppObject, geo, LineReader.Lines(text))
  }

  /**
   The de-indexing loops and the two tangent loops over the pools: one
   position, texture coordinate, normal, tangent and bitangent per face corner.
   */
  function Assemble<C>(geo: Geometry<C>, p: Pools<C>): (o: Object<C>)
    requires InRange(p) && Aligned(p)
    ensures |o.vertexes| == |o.uvs| == |o.normals| == |o.tangents| == |o.bitangents| == |p.vertexIndices|
    ensures forall k :: 0 <= k < |o.vertexes| ==> o.vertexes[k] == p.vertices[p.vertexIndices[k]]
    ensures forall k :: 0 <= k < |o.uvs| ==> o.uvs[k] == p.uvs[p.uvIndices[k]]
    ensures forall k :: 0 <= k < |o.normals| ==> o.normals[k] == p.normals[p.normalIndices[k]]
    ensures forall k :: 0 <= k < |o.bitangents| ==> o.bitangents[k] == CornerBasis(CppObject, geo, p, k).bitangent
    ensures forall k :: 0 <= k < |o.tangents| ==>
      o.tangents[k] == geo.orthogonalize(o.normals[k], CornerBasis(CppObject, geo, p, k).tangent, o.bitangents[k])
  {
    var frames := TangentSpace(CppObject, geo, p);
    Object(Deindex(p.vertices, p.vertexIndices), Deindex(p.uvs, p.uvIndices), Deindex(p.normals, p.normalIndices),
           frames.tangents, frames.bitangents)
  }

  /** The object built from the lines of a readable file. */
  function Load<C>(geo: Geometry<C>, lines: seq<string>): (o: Object<C>)
    requires AllWellFormed(lines) && InRange(ParseLines(CppObject, geo, lines))
    ensures |o.vertexes| == |o.uvs| == |o.normals| == |o.tangents| == |o.bitangents|
      == 3 * |Kept(CppObject, FaceLine, lines)|
  {
    Assemble(geo, ParseLines(CppObject, geo, lines))
  }

  /** The constructor `object::object`: every list is empty when the file cannot be opened. */
  function Construct<C>(geo: Geometry<C>, file: ObjFile): (o: Object<C>)
    requires file.Readable? ==> Loadable(CppObject, geo, file.text)
    ensures file.Unopenable? ==> o == Object([], [], [], [], [])
    ensures file.Readable? ==> |o.vertexes| == |Parsed(geo, file.text).vertexIndices|
  {
    match file
    case Unopenable => Object([], [], [], [], [])
    case Readable(text) => Assemble(geo, Parsed(geo, text))
  }

  /**
   End to end, positions: output corner `i` carries the position written on
   the `v` line that corner `i % 3` of the `(i / 3)`-th accepted face names,
   counting accepted `v` lines from 1.
   */
  lemma CornerPositionFromFile<C>(geo: Geometry<C>, lines: seq<string>, i: nat)
    requires AllWellFormed(lines) && InRange(ParseLines(CppObject, geo, lines))
    requires i < 3 * |Kept(CppObject, FaceLine, lines)|
    ensures 0 <= CornerAt(CppObject, lines, i).vertex < |Kept(CppObject, VertexLine, lines)|
    ensures Load(geo, lines).vertexes[i] == KeptVertex(CppObject, geo, lines, CornerAt(CppObject, lines, i).vertex)
  {
    var p := ParseLines(CppObject, geo, lines);
    FaceIndexAt(CppObject, geo, lines, i);
    VerticesInFileOrder(CppObject, geo, lines);
    assert Load(geo, lines).vertexes[i] == p.vertices[p.vertexIndices[i]];
  }

  /** End to end, texture coordinates: as `CornerPositionFromFile`, for `vt` lines. */
  lemma CornerUvFromFile<C>(geo: Geometry<C>, lines: seq<string>, i: nat)
    requires AllWellFormed(lines) && InRange(ParseLines(CppObject, geo, lines))
    requires i < 3 * |Kept(CppObject, FaceLine, lines)|
    ensures 0 <= CornerAt(CppObject, lines, i).uv < |Kept(CppObject, UvLine, lines)|
    ensures Load(geo, lines).uvs[i] == KeptUv(CppObject, geo, lines, CornerAt(CppObject, lines, i).uv)
  {
    var p := ParseLines(CppObject, geo, lines);
    FaceIndexAt(CppObject, geo, lines, i);
    UvsInFileOrder(CppObject, geo, lines);
    assert Load(geo, lines).uvs[i] == p.uvs[p.uvIndices[i]];
  }

  /** End to end, normals: as `CornerPositionFromFile`, for `vn` lines, normalised. */
  lemma CornerNormalFromFile<C>(geo: Geometry<C>, lines: seq<string>, i: nat)
    requires AllWellFormed(lines) && InRange(ParseLines(CppObject, geo, lines))
    requires i < 3 * |Kept(CppObject, FaceLine, lines)|
    ensures 0 <= CornerAt(CppObject, lines, i).normal < |Kept(CppObject, NormalLine, lines)|
    ensures Load(geo, lines).normals[i] == KeptNormal(CppObject, geo, lines, CornerAt(CppObject, lines, i).normal)
  {
    var p := ParseLines(CppObject, geo, lines);
    FaceIndexAt(CppObject, geo, lines, i);
    NormalsInFileOrder(CppObject, geo, lines);
    assert Load(geo, lines).normals[i] == p.normals[p.normalIndices[i]];
  }

  /** The output has three corners per accepted face line. */
  lemma ThreeCornersPerFace<C>(geo: Geometry<C>, text: string)
    requires Loadable(CppObject, geo, text)
    ensures |Construct(geo, Readable(text)).vertexes| == 3 * |Kept(CppObject, FaceLine, LineReader.Lines(text))|
  {
    FaceIndicesInFileOrder(CppObject, geo, LineReader.Lines(text));
  }

  /** `r` is `p` with the last face's three corners appended once more. */
  ghost predicate RepeatsLastFace<C>(p: Pools<C>, r: Pools<C>)
    requires Aligned(p) && 3 <= |p.vertexIndices|
  {
    var m := |p.vertexIndices|;
    && r.vertices == p.vertices && r.uvs == p.uvs && r.normals == p.normals
    && r.vertexIndices == p.vertexIndices + p.vertexIndices[m - 3..]
    && r.uvIndices == p.uvIndices + p.uvIndices[m - 3..]
    && r.normalIndices == p.normalIndices + p.normalIndices[m - 3..]
  }

  /** A list that continues `a` with a copy of its last three entries. */
  lemma RepeatTail<T>(a: seq<T>, b: seq<T>)
    requires 3 <= |a| && |b| == |a| + 3
    requires forall k :: 0 <= k < |b| ==> b[k] == a[if k < |a| then k else k - 3]
    ensures b == a + a[|a| - 3..]
  {
    assert forall k :: 0 <= k < |b| ==> b[k] == (a + a[|a| - 3..])[k];
  }

  /** The repeated corners index into the same pools, so `r` stays in range. */
  lemma RepeatInRange<C>(p: Pools<C>, r: Pools<C>)
    requires InRange(p) && Aligned(p) && 3 <= |p.vertexIndices| && RepeatsLastFace(p, r)
    ensures InRange(r) && Aligned(r)
    ensures forall k :: 0 <= k < |r.vertexIndices| ==>
      var j := if k < |p.vertexIndices| then k else k - 3;
      && r.vertexIndices[k] == p.vertexIndices[j]
      && r.uvIndices[k] == p.uvIndices[j]
      && r.normalIndices[k] == p.normalIndices[j]
  {
  }

  /** Triangle `t` of `r` is triangle `t` of `p`, or, past the end of `p`, a copy of its last triangle. */
  lemma TriangleRepeats<C>(p: Pools<C>, r: Pools<C>, t: nat)
    requires InRange(p) && Aligned(p) && 3 <= |p.vertexIndices| && RepeatsLastFace(p, r)
    requires InRange(r) && Aligned(r) && 3 * t + 3 <= |r.vertexIndices|
    ensures var s := if 3 * t < |p.vertexIndices| then t else t - 1;
      3 * s + 3 <= |p.vertexIndices| && TriangleOf(r, t) == TriangleOf(p, s)
  {
    var m := |p.vertexIndices|;
    var a := 3 * t;
    var b := if a < m then a else a - 3;
    assert r.vertexIndices[a] == p.vertexIndices[b];
    assert r.vertexIndices[a + 1] == p.vertexIndices[b + 1];
    assert r.vertexIndices[a + 2] == p.vertexIndices[b + 2];
    assert r.uvIndices[a] == p.uvIndices[b];
    assert r.uvIndices[a + 1] == p.uvIndices[b + 1];
    assert r.uvIndices[a + 2] == p.uvIndices[b + 2];
  }

  /** A repeated corner lies in a copy of the last triangle, so it gets that triangle's basis. */
  lemma CornerBasisRepeats<C>(geo: Geometry<C>, p: Pools<C>, r: Pools<C>, k: nat)
    requires InRange(p) && Aligned(p) && 3 <= |p.vertexIndices| && RepeatsLastFace(p, r)
    requires InRange(r) && Aligned(r) && k < |r.vertexIndices|
    ensures var j := if k < |p.vertexIndices| then k else k - 3;
      CornerBasis(CppObject, geo, r, k) == CornerBasis(CppObject, geo, p, j)
  {
    var t := k / 3;
    TriangleRepeats(p, r, t);
    assert (if k < |p.vertexIndices| then k else k - 3) / 3 == if 3 * t < |p.vertexIndices| then t else t - 1;
  }

  /** Repeating the last three indices repeats the last three de-indexed entries. */
  lemma DeindexRepeats<T>(pool: seq<T>, a: seq<int>, b: seq<int>)
    requires 3 <= |a| && b == a + a[|a| - 3..]
    requires IndicesInRange(pool, a)
    ensures IndicesInRange(pool, b)
    ensures Deindex(pool, b) == Deindex(pool, a) + Deindex(pool, a)[|a| - 3..]
  {
    assert forall k :: |a| <= k < |b| ==> b[k] == a[k - 3];
    RepeatTail(Deindex(pool, a), Deindex(pool, b));
  }

  /** One entry of the repeated lists: corner `k` of `r` has the frame of corner `j` of `p`. */
  lemma FrameEntryRepeats<C>(geo: Geometry<C>, p: Pools<C>, r: Pools<C>, k: nat)
    requires InRange(p) && Aligned(p) && 3 <= |p.vertexIndices| && RepeatsLastFace(p, r)
    requires InRange(r) && Aligned(r) && k < |r.vertexIndices|
    ensures var j := if k < |p.vertexIndices| then k else k - 3;
      var f := TangentSpace(CppObject, geo, p);
      var g := TangentSpace(CppObject, geo, r);
      g.tangents[k] == f.tangents[j] && g.bitangents[k] == f.bitangents[j]
  {
    RepeatInRange(p, r);
    CornerBasisRepeats(geo, p, r, k);
  }

  /** Repeating the last face repeats its three tangents and bitangents. */
  lemma FramesRepeat<C>(geo: Geometry<C>, p: Pools<C>, r: Pools<C>)
    requires InRange(p) && Aligned(p) && 3 <= |p.vertexIndices| && RepeatsLastFace(p, r)
    requires InRange(r) && Aligned(r)
    ensures var f := TangentSpace(CppObject, geo, p);
      var g := TangentSpace(CppObject, geo, r);
      g.tangents == f.tangents + f.tangents[|f.tangents| - 3..]
    ensures var f := TangentSpace(CppObject, geo, p);
      var g := TangentSpace(CppObject, geo, r);
      g.bitangents == f.bitangents + f.bitangents[|f.bitangents| - 3..]
  {
    var f := TangentSpace(CppObject, geo, p);
    var g := TangentSpace(CppObject, geo, r);
    forall k | 0 <= k < |g.tangents|
      ensures g.tangents[k] == f.tangents[if k < |f.tangents| then k else k - 3]
      ensures g.bitangents[k] == f.bitangents[if k < |f.tangents| then k else k - 3]
    {
      FrameEntryRepeats(geo, p, r, k);
    }
    RepeatTail(f.tangents, g.tangents);
    RepeatTail(f.bitangents, g.bitangents);
  }

  /** Repeating the last face in the pools repeats its three corners in every output list. */
  lemma AssembleRepeatsLastFace<C>(geo: Geometry<C>, p: Pools<C>, r: Pools<C>)
    requires InRange(p) && Aligned(p) && 3 <= |p.vertexIndices| && RepeatsLastFace(p, r)
    ensures InRange(r) && Aligned(r)
    ensures var o := Assemble(geo, p);
      var w := Assemble(geo, r);
      var n := |o.vertexes|;
      && w.vertexes == o.vertexes + o.vertexes[n - 3..]
      && w.uvs == o.uvs + o.uvs[n - 3..]
      && w.normals == o.normals + o.normals[n - 3..]
      && w.tangents == o.tangents + o.tangents[n - 3..]
      && w.bitangents == o.bitangents + o.bitangents[n - 3..]
  {
    RepeatInRange(p, r);
    DeindexRepeats(p.vertices, p.vertexIndices, r.vertexIndices);
    DeindexRepeats(p.uvs, p.uvIndices, r.uvIndices);
    DeindexRepeats(p.normals, p.normalIndices, r.normalIndices);
    FramesRepeat(geo, p, r);
  }

  /**
   On an unterminated file whose last line is an accepted face, the lines the
   `while (ifs)` loop hands over parse to the pools of the file with that
   face's corners repeated.
   */
  lemma LoopPoolsRepeatLastFace<C>(geo: Geometry<C>, text: string)
    requires text != [] && !Tokenizer.EndsWith(text, LineReader.Newline)
    requires AllWellFormed(LineReader.Lines(text))
    requires var lines := LineReader.Lines(text);
      lines != [] && Accepted(CppObject, lines[|lines| - 1]) && Classify(lines[|lines| - 1]) == FaceLine
    ensures AllWellFormed(LineReader.LoopLines(text))
    ensures 3 <= |Parsed(geo, text).vertexIndices|
    ensures RepeatsLastFace(Parsed(geo, text), ParseLines(CppObject, geo, LineReader.LoopLines(text)))
  {
    var lines := LineReader.Lines(text);
    var last := lines[|lines| - 1];
    var init := lines[..|lines| - 1];
    AsWrittenRepeatsLastLine(CppObject, geo, text);
    assert forall k :: 0 <= k < |init| ==> WellFormed(init[k]) by {
      forall k | 0 <= k < |init| ensures WellFormed(init[k]) {
        assert init[k] == lines[k];
      }
    }
    var q := ParseLines(CppObject, geo, init);
    var p := ParseLines(CppObject, geo, lines);
    assert p == AddLine(CppObject, geo, q, last);
    FaceAppendsThreeCorners(CppObject, geo, q, last);
    FaceAppendsThreeCorners(CppObject, geo, p, last);
  }

  /**
   The loop object.cpp actually runs, `while (ifs)`, on a file whose last line
   is an accepted face and lacks a final newline: that face is added twice, so
   every output list ends with its three corners repeated.
   */
  lemma AsWrittenRepeatsLastFace<C>(geo: Geometry<C>, text: string)
    requires text != [] && !Tokenizer.EndsWith(text, LineReader.Newline)
    requires Loadable(CppObject, geo, text)
    requires var lines := LineReader.Lines(text);
      lines != [] && Accepted(CppObject, lines[|lines| - 1]) && Classify(lines[|lines| - 1]) == FaceLine
    ensures AllWellFormed(LineReader.LoopLines(text))
    ensures InRange(ParseLines(CppObject, geo, LineReader.LoopLines(text)))
    ensures 3 <= |Construct(geo, Readable(text)).vertexes|
    ensures var o := Construct(geo, Readable(text));
      var w := Load(geo, LineReader.LoopLines(text));
      var n := |o.vertexes|;
      && w.vertexes == o.vertexes + o.vertexes[n - 3..]
      && w.uvs == o.uvs + o.uvs[n - 3..]
      && w.normals == o.normals + o.normals[n - 3..]
      && w.tangents == o.tangents + o.tangents[n - 3..]
      && w.bitangents == o.bitangents + o.bitangents[n - 3..]
  {
    var p := Parsed(geo, text);
    LoopPoolsRepeatLastFace(geo, text);
    var r := ParseLines(CppObject, geo, LineReader.LoopLines(text));
    AssembleRepeatsLastFace(geo, p, r);
    assert Construct(geo, Readable(text)) == Assemble(geo, p);
    assert Load(geo, LineReader.LoopLines(text)) == Assemble(geo, r);
  }
}

=== FILE: object_h.dfy ===
/**
 Class `Object` of object.h: the same reading loop as object.cpp with
 stricter token counts and no normalisation, after which positions, texture
 coordinates and normals are written component by component into flat
 `float` arrays (`getVertexes()`, `getUVs()`, `getNormales()`), whose float
 counts `numVertexes()`, `numUVs()` and `numNormales()` report. Tangents and
 bitangents stay per-corner vectors.
 */
module ObjectHeader {
  import opened ObjParse
  import opened Deindexing
  import opened TangentFrames
  import LineReader

  /**
   The state an `Object` is left in. When the file cannot be opened the
   constructor returns before touching anything: the arrays stay null and the
   counts are never assigned.
   */
  datatype FlatObject<C> =
    | NotOpened
    | FlatObject(
        vertexes: seq<C>, numVertexes: int,
        uvs: seq<C>, numUVs: int,
        normales: seq<C>, numNormales: int,
        tangents: seq<Vec3<C>>, bitangents: seq<Vec3<C>>)

  /** Component `j` of a vector: `x`, `y`, `z` for 0, 1, 2. */
  function Component3<C>(v: Vec3<C>, j: nat): C
    requires j < 3
  {
    if j == 0 then v.x else if j == 1 then v.y else v.z
  }

  /** Component `j` of a texture coordinate: `x`, `y` for 0, 1. */
  function Component2<C>(v: Vec2<C>, j: nat): C
    requires j < 2
  {
    if j == 0 then v.x else v.y
  }

  /** The components of the vectors one after another: `x0 y0 z0 x1 y1 z1 ...`. */
  function Flatten3<C>(vs: seq<Vec3<C>>): (f: seq<C>)
    ensures |f| == 3 * |vs|
    decreases |vs|
  {
    if vs == [] then []
    else var v := vs[|vs| - 1]; Flatten3(vs[..|vs| - 1]) + [v.x, v.y, v.z]
  }

  /** The components of the texture coordinates one after another: `u0 v0 u1 v1 ...`. */
  function Flatten2<C>(vs: seq<Vec2<C>>): (f: seq<C>)
    ensures |f| == 2 * |vs|
    decreases |vs|
  {
    if vs == [] then []
    else var v := vs[|vs| - 1]; Flatten2(vs[..|vs| - 1]) + [v.x, v.y]
  }

  /** Float `i` of a flattened list is component `i % 3` of vector `i / 3`. */
  lemma {:induction false} Flatten3Layout<C>(vs: seq<Vec3<C>>, i: nat)
    requires i < 3 * |vs|
    ensures Flatten3(vs)[i] == Component3(vs[i / 3], i % 3)
    decreases |vs|
  {
    var n := |vs| - 1;
    var init := vs[..n];
    if i < 3 * n {
      Flatten3Layout(init, i);
      assert vs[i / 3] == init[i / 3];
    } else {
      assert i / 3 == n;
      var v := vs[n];
      assert Flatten3(vs) == Flatten3(init) + [v.x, v.y, v.z];
    }
  }

  /** Float `i` of a flattened list is component `i % 2` of texture coordinate `i / 2`. */
  lemma {:induction false} Flatten2Layout<C>(vs: seq<Vec2<C>>, i: nat)
    requires i < 2 * |vs|
    ensures Flatten2(vs)[i] == Component2(vs[i / 2], i % 2)
    decreases |vs|
  {
    var n := |vs| - 1;
    var init := vs[..n];
    if i < 2 * n {
      Flatten2Layout(init, i);
      assert vs[i / 2] == init[i / 2];
    } else {
      assert i / 2 == n;
      var v := vs[n];
      assert Flatten2(vs) == Flatten2(init) + [v.x, v.y];
    }
  }

  /** Flattening is injective: the flat array determines the vectors. */
  lemma {:induction false} Flatten3Injective<C>(a: seq<Vec3<C>>, b: seq<Vec3<C>>)
    requires Flatten3(a) == Flatten3(b)
    ensures a == b
    decreases |a|
  {
    if a != [] {
      var n := |a| - 1;
      assert |b| == |a|;
      var fa := Flatten3(a);
      assert fa[3 * n..] == [a[n].x, a[n].y, a[n].z];
      assert Flatten3(b)[3 * n..] == [b[n].x, b[n].y, b[n].z];
      assert fa[..3 * n] == Flatten3(a[..n]);
      assert Flatten3(b)[..3 * n] == Flatten3(b[..n]);
      Flatten3Injective(a[..n], b[..n]);
      assert a == a[..n] + [a[n]];
      assert b == b[..n] + [b[n]];
    }
  }

  /** One more index adds the three components of the vector it names. */
  lemma Flatten3Step<C>(pool: seq<Vec3<C>>, indices: seq<int>, k: nat)
    requires IndicesInRange(pool, indices) && k < |indices|
    ensures var v := pool[indices[k]];
      Flatten3(Deindex(pool, indices[..k + 1])) == Flatten3(Deindex(pool, indices[..k])) + [v.x, v.y, v.z]
  {
    var prefix := indices[..k + 1];
    assert prefix[..k] == indices[..k];
    assert Deindex(pool, prefix) == Deindex(pool, indices[..k]) + [pool[indices[k]]];
  }

  /** One more index adds the two components of the texture coordinate it names. */
  lemma Flatten2Step<C>(pool: seq<Vec2<C>>, indices: seq<int>, k: nat)
    requires IndicesInRange(pool, indices) && k < |indices|
    ensures var v := pool[indices[k]];
      Flatten2(Deindex(pool, indices[..k + 1])) == Flatten2(Deindex(pool, indices[..k])) + [v.x, v.y]
  {
    var prefix := indices[..k + 1];
    assert prefix[..k] == indices[..k];
    assert Deindex(pool, prefix) == Deindex(pool, indices[..k]) + [pool[indices[k]]];
  }

  /**
   The position loop: three floats per vertex index. The source's guard
   `if (i >= m_vertexes_f_size) break;` is the second half of the loop
   condition; `size` is `m_vertexes_f_size`.
   */
  method FlattenVertexes<C>(vertices: seq<Vec3<C>>, indices: seq<int>) returns (f: seq<C>, size: int)
    requires IndicesInRange(vertices, indices)
    ensures size == 3 * |indices| && |f| == size
    ensures f == Flatten3(Deindex(vertices, indices))
  {
    size := |indices| * 3;
    f := [];
    var k := 0;
    while k < |indices| && |f| < size
      invariant 0 <= k <= |indices|
      invariant |f| == 3 * k
      invariant f == Flatten3(Deindex(vertices, indices[..k]))
    {
      var v := vertices[indices[k]];
      Flatten3Step(vertices, indices, k);
      f := f + [v.x, v.y, v.z];
      k := k + 1;
    }
    assert indices[..k] == indices;
  }

  /** The texture-coordinate loop: two floats per index; `size` is `m_uv_f_size`. */
  method FlattenUVs<C>(uvs: seq<Vec2<C>>, indices: seq<int>) returns (f: seq<C>, size: int)
    requires IndicesInRange(uvs, indices)
    ensures size == 2 * |indices| && |f| == size
    ensures f == Flatten2(Deindex(uvs, indices))
  {
    f := [];
    var k := 0;
    while k < |indices|
      invariant 0 <= k <= |indices|
      invariant f == Flatten2(Deindex(uvs, indices[..k]))
    {
      var v := uvs[indices[k]];
      Flatten2Step(uvs, indices, k);
      f := f + [v.x, v.y];
      k := k + 1;
    }
    assert indices[..k] == indices;
    size := |indices| * 2;
  }

  /** The normal loop: three floats per index; `size` is `m_normales_size`. */
  method FlattenNormales<C>(normals: seq<Vec3<C>>, indices: seq<int>) returns (f: seq<C>, size: int)
    requires IndicesInRange(normals, indices)
    ensures size == 3 * |indices| && |f| == size
    ensures f == Flatten3(Deindex(normals, indices))
  {
    f := [];
    var k := 0;
    while k < |indices|
      invariant 0 <= k <= |indices|
      invariant f == Flatten3(Deindex(normals, indices[..k]))
    {
      var v := normals[indices[k]];
      Flatten3Step(normals, indices, k);
      f := f + [v.x, v.y, v.z];
      k := k + 1;
    }
    assert indices[..k] == indices;
    size := |indices| * 3;
  }

  /**
   Everything after the reading loop: the three flat arrays with their
   counts, then the tangent and bitangent lists.
   */
  method Build<C>(geo: Geometry<C>, p: Pools<C>) returns (o: FlatObject<C>)
    requires InRange(p) && Aligned(p)
    ensures o.FlatObject?
    ensures o.numVertexes == 3 * |p.vertexIndices| && o.vertexes == Flatten3(Deindex(p.vertices, p.vertexIndices))
    ensures o.numUVs == 2 * |p.uvIndices| && o.uvs == Flatten2(Deindex(p.uvs, p.uvIndices))
    ensures o.numNormales == 3 * |p.normalIndices| && o.normales == Flatten3(Deindex(p.normals, p.normalIndices))
    ensures |o.tangents| == |o.bitangents| == |p.vertexIndices|
    ensures forall k :: 0 <= k < |o.bitangents| ==> o.bitangents[k] == CornerBasis(HeaderObject, geo, p, k).bitangent
    ensures forall k :: 0 <= k < |o.tangents| ==>
      o.tangents[k] == geo.orthogonalize(p.normals[p.normalIndices[k]], CornerBasis(HeaderObject, geo, p, k).tangent, o.bitangents[k])
  {
    var vertexes, numVertexes := FlattenVertexes(p.vertices, p.vertexIndices);
    var uvs, numUVs := FlattenUVs(p.uvs, p.uvIndices);
    var normales, numNormales := FlattenNormales(p.normals, p.normalIndices);
    var frames := TangentSpace(HeaderObject, geo, p);
    o := FlatObject(vertexes, numVertexes, uvs, numUVs, normales, numNormales, frames.tangents, frames.bitangents);
  }

  /**
   The pools and index arrays object.h builds from a readable file, each line
   read once, as the intended reading loop does.
   `ObjParse.AsWrittenRepeatsLastLine` states what the loop as written adds.
   */
  function Parsed<C>(geo: Geometry<C>, text: string): (p: Pools<C>)
    requires AllWellFormed(LineReader.Lines(text))
    ensures Aligned(p) && |p.vertexIndices| == 3 * |Kept(HeaderObject, FaceLine, LineReader.Lines(text))|
  {
    ParseLines(HeaderObject, geo, LineReader.Lines(text))
  }

  /** The constructor `Object::Object`. */
  method Construct<C>(geo: Geometry<C>, file: ObjFile) returns (o: FlatObject<C>)
    requires file.Readable? ==> Loadable(HeaderObject, geo, file.text)
    ensures file.Unopenable? <==> o.NotOpened?
    ensures file.Readable? ==>
      var faces := Kept(HeaderObject, FaceLine, LineReader.Lines(file.text));
      o.numVertexes == 9 * |faces| && o.numUVs == 6 * |faces| && o.numNormales == 9 * |faces|
    ensures file.Readable? ==>
      var p := Parsed(geo, file.text);
      && o.vertexes == Flatten3(Deindex(p.vertices, p.vertexIndices))
      && o.uvs == Flatten2(Deindex(p.uvs, p.uvIndices))
      && o.normales == Flatten3(Deindex(p.normals, p.normalIndices))
      && |o.tangents| == |o.bitangents| == |p.vertexIndices|
      && (forall k :: 0 <= k < |o.bitangents| ==> o.bitangents[k] == CornerBasis(HeaderObject, geo, p, k).bitangent)
      && (forall k :: 0 <= k < |o.tangents| ==>
            o.tangents[k] == geo.orthogonalize(p.normals[p.normalIndices[k]], CornerBasis(HeaderObject, geo, p, k).tangent, o.bitangents[k]))
  {
    match file {
      case Unopenable =>
        o := NotOpened;
      case Readable(text) =>
        var p := Parsed(geo, text);
        o := Build(geo, p);
    }
  }

  /**
   Float `i` of `getVertexes()` is component `i % 3` of the position that
   the `(i / 3)`-th corner index names.
   */
  lemma VertexFloatAt<C>(vertices: seq<Vec3<C>>, indices: seq<int>, i: nat)
    requires IndicesInRange(vertices, indices) && i < 3 * |indices|
    ensures Flatten3(Deindex(vertices, indices))[i] == Component3(vertices[indices[i / 3]], i % 3)
  {
    Flatten3Layout(Deindex(vertices, indices), i);
  }

  /** Float `i` of `getUVs()` is component `i % 2` of the texture coordinate that index `i / 2` names. */
  lemma UvFloatAt<C>(uvs: seq<Vec2<C>>, indices: seq<int>, i: nat)
    requires IndicesInRange(uvs, indices) && i < 2 * |indices|
    ensures Flatten2(Deindex(uvs, indices))[i] == Component2(uvs[indices[i / 2]], i % 2)
  {
    Flatten2Layout(Deindex(uvs, indices), i);
  }

  /**
   End to end, positions: float `i` of `getVertexes()` is component `i % 3` of
   the position written on the `v` line that corner `i / 3` names, counting
   accepted `v` lines from 1.
   */
  lemma VertexFloatFromFile<C>(geo: Geometry<C>, lines: seq<string>, i: nat)
    requires AllWellFormed(lines) && InRange(ParseLines(HeaderObject, geo, lines))
    requires i < 9 * |Kept(HeaderObject, FaceLine, lines)|
    ensures 0 <= CornerAt(HeaderObject, lines, i / 3).vertex < |Kept(HeaderObject, VertexLine, lines)|
    ensures var p := ParseLines(HeaderObject, geo, lines);
      var c := CornerAt(HeaderObject, lines, i / 3);
      Flatten3(Deindex(p.vertices, p.vertexIndices))[i] == Component3(KeptVertex(HeaderObject, geo, lines, c.vertex), i % 3)
  {
    var p := ParseLines(HeaderObject, geo, lines);
    FaceIndexAt(HeaderObject, geo, lines, i / 3);
    VerticesInFileOrder(HeaderObject, geo, lines);
    VertexFloatAt(p.vertices, p.vertexIndices, i);
  }

  /** End to end, texture coordinates: float `i` of `getUVs()` comes from the `vt` line that corner `i / 2` names. */
  lemma UvFloatFromFile<C>(geo: Geometry<C>, lines: seq<string>, i: nat)
    requires AllWellFormed(lines) && InRange(ParseLines(HeaderObject, geo, lines))
    requires i < 6 * |Kept(HeaderObject, FaceLine, lines)|
    ensures 0 <= CornerAt(HeaderObject, lines, i / 2).uv < |Kept(HeaderObject, UvLine, lines)|
    ensures var p := ParseLines(HeaderObject, geo, lines);
      var c := CornerAt(HeaderObject, lines, i / 2);
      Flatten2(Deindex(p.uvs, p.uvIndices))[i] == Component2(KeptUv(HeaderObject, geo, lines, c.uv), i % 2)
  {
    var p := ParseLines(HeaderObject, geo, lines);
    FaceIndexAt(HeaderObject, geo, lines, i / 2);
    UvsInFileOrder(HeaderObject, geo, lines);
    UvFloatAt(p.uvs, p.uvIndices, i);
  }

  /** End to end, normals: float `i` of `getNormales()` comes, not normalised, from the `vn` line that corner `i / 3` names. */
  lemma NormalFloatFromFile<C>(geo: Geometry<C>, lines: seq<string>, i: nat)
    requires AllWellFormed(lines) && InRange(ParseLines(HeaderObject, geo, lines))
    requires i < 9 * |Kept(HeaderObject, FaceLine, lines)|
    ensures 0 <= CornerAt(HeaderObject, lines, i / 3).normal < |Kept(HeaderObject, NormalLine, lines)|
    ensures var p := ParseLines(HeaderObject, geo, lines);
      var c := CornerAt(HeaderObject, lines, i / 3);
      Flatten3(Deindex(p.normals, p.normalIndices))[i] == Component3(KeptNormal(HeaderObject, geo, lines, c.normal), i % 3)
  {
    var p := ParseLines(HeaderObject, geo, lines);
    FaceIndexAt(HeaderObject, geo, lines, i / 3);
    NormalsInFileOrder(HeaderObject, geo, lines);
    VertexFloatAt(p.normals, p.normalIndices, i);
  }
}

=== FILE: tangent_frames.dfy ===
/**
 The tangent and bitangent lists both loaders build (object.cpp:114-165,
 object.h:143-199): one basis per triangle, pushed three times, then a second
 pass that rewrites each tangent against the corner's normal and bitangent.
 The arithmetic is abstract (`Geometry`); what is modelled is which triangle
 and corner each entry comes from, and object.h's sign change for two
 particular triangles.
 */
module TangentFrames {
  import opened ObjParse

  /** The loaders' `m_tangents` and `m_bitangents`. */
  datatype Frames<C> = Frames(tangents: seq<Vec3<C>>, bitangents: seq<Vec3<C>>)

  /** Positions and texture coordinates of the `t`-th face: corners `3t`, `3t+1`, `3t+2`. */
  function TriangleOf<C>(p: Pools<C>, t: nat): Triangle<C>
    requires InRange(p) && Aligned(p) && 3 * t + 3 <= |p.vertexIndices|
  {
    var i := 3 * t;
    Triangle(p.vertices[p.vertexIndices[i]], p.vertices[p.vertexIndices[i + 1]], p.vertices[p.vertexIndices[i + 2]],
             p.uvs[p.uvIndices[i]], p.uvs[p.uvIndices[i + 1]], p.uvs[p.uvIndices[i + 2]])
  }

  /** object.h negates the reciprocal determinant when the loop counter is `3 * 5` or `3 * 11`. */
  predicate NegatesDeterminant(variant: Variant, i: int)
  {
    variant == HeaderObject && (i == 3 * 5 || i == 3 * 11)
  }

  /** The basis computed for the triangle whose first corner is `i`; object.cpp normalises both vectors. */
  function TriangleBasis<C>(variant: Variant, geo: Geometry<C>, tri: Triangle<C>, i: int): Basis<C>
  {
    var b := geo.solve(tri, NegatesDeterminant(variant, i));
    if variant == CppObject then Basis(geo.normalize(b.tangent), geo.normalize(b.bitangent)) else b
  }

  /** The basis of the `t`-th face. */
  function FaceBasis<C>(variant: Variant, geo: Geometry<C>, p: Pools<C>, t: nat): Basis<C>
    requires InRange(p) && Aligned(p) && 3 * t + 3 <= |p.vertexIndices|
  {
    TriangleBasis(variant, geo, TriangleOf(p, t), 3 * t)
  }

  /** The basis of the face that corner `k` belongs to. */
  function CornerBasis<C>(variant: Variant, geo: Geometry<C>, p: Pools<C>, k: nat): Basis<C>
    requires InRange(p) && Aligned(p) && k < |p.vertexIndices|
  {
    FaceBasis(variant, geo, p, k / 3)
  }

  /** The lists after the first `n` turns of the triangle loop. */
  function BuildFrames<C>(variant: Variant, geo: Geometry<C>, p: Pools<C>, n: nat): (f: Frames<C>)
    requires InRange(p) && Aligned(p) && 3 * n <= |p.vertexIndices|
    ensures |f.tangents| == |f.bitangents| == 3 * n
    ensures forall i :: 0 <= i < |f.tangents| ==> f.tangents[i] == CornerBasis(variant, geo, p, i).tangent
    ensures forall i :: 0 <= i < |f.bitangents| ==> f.bitangents[i] == CornerBasis(variant, geo, p, i).bitangent
    decreases n
  {
    if n == 0 then Frames([], [])
    else
      var f := BuildFrames(variant, geo, p, n - 1);
      var b := TriangleBasis(variant, geo, TriangleOf(p, n - 1), 3 * (n - 1));
      Frames(f.tangents + [b.tangent, b.tangent, b.tangent], f.bitangents + [b.bitangent, b.bitangent, b.bitangent])
  }

  /** The lists for all faces of `p`. */
  function AllFrames<C>(variant: Variant, geo: Geometry<C>, p: Pools<C>): (f: Frames<C>)
    requires InRange(p) && Aligned(p)
    ensures |f.tangents| == |f.bitangents| == |p.vertexIndices|
  {
    BuildFrames(variant, geo, p, |p.vertexIndices| / 3)
  }

  /**
   The first `n` turns of the orthogonalisation loop: tangent `i` becomes
   `orthogonalize(normal of corner i, tangent i, bitangent i)`; bitangents are
   only read.
   */
  function Orthogonalize<C>(geo: Geometry<C>, normals: seq<Vec3<C>>, normalIndices: seq<int>, f: Frames<C>, n: nat): (r: Frames<C>)
    requires |f.tangents| == |f.bitangents| == |normalIndices| && n <= |normalIndices|
    requires forall k :: 0 <= k < |normalIndices| ==> 0 <= normalIndices[k] < |normals|
    ensures r.bitangents == f.bitangents
    ensures |r.tangents| == |f.tangents|
    ensures forall i :: 0 <= i < n ==>
      r.tangents[i] == geo.orthogonalize(normals[normalIndices[i]], f.tangents[i], f.bitangents[i])
    ensures forall i :: n <= i < |f.tangents| ==> r.tangents[i] == f.tangents[i]
    decreases n
  {
    if n == 0 then f
    else
      var r := Orthogonalize(geo, normals, normalIndices, f, n - 1);
      var i := n - 1;
      r.(tangents := r.tangents[i := geo.orthogonalize(normals[normalIndices[i]], r.tangents[i], r.bitangents[i])])
  }

  /** Both loaders' final lists: the triangle loop followed by the orthogonalisation loop. */
  function TangentSpace<C>(variant: Variant, geo: Geometry<C>, p: Pools<C>): (r: Frames<C>)
    requires InRange(p) && Aligned(p)
    ensures |r.tangents| == |r.bitangents| == |p.vertexIndices|
    ensures forall i :: 0 <= i < |r.bitangents| ==> r.bitangents[i] == CornerBasis(variant, geo, p, i).bitangent
    ensures forall i :: 0 <= i < |r.tangents| ==>
      var b := CornerBasis(variant, geo, p, i);
      r.tangents[i] == geo.orthogonalize(p.normals[p.normalIndices[i]], b.tangent, b.bitangent)
  {
    var f := AllFrames(variant, geo, p);
    Orthogonalize(geo, p.normals, p.normalIndices, f, |p.vertexIndices|)
  }

  /** The three entries of a triangle are equal, in both lists. */
  lemma SameBasisWithinTriangle<C>(variant: Variant, geo: Geometry<C>, p: Pools<C>, i: nat, j: nat)
    requires InRange(p) && Aligned(p)
    requires i < |p.vertexIndices| && j < |p.vertexIndices| && i / 3 == j / 3
    ensures var f := AllFrames(variant, geo, p);
      f.tangents[i] == f.tangents[j] && f.bitangents[i] == f.bitangents[j]
    ensures var r := TangentSpace(variant, geo, p);
      r.bitangents[i] == r.bitangents[j]
  {
  }

  /**
   The flag test alone, per triangle: object.cpp never negates; object.h
   negates for exactly the 6th and 12th triangles (first corners 15 and 33).
   `NegatedCorners` states the effect on the lists.
   */
  lemma NegatedTriangles(variant: Variant, t: nat)
    ensures NegatesDeterminant(variant, 3 * t) <==> variant == HeaderObject && (t == 5 || t == 11)
  {
  }

  /**
   object.cpp's counterpart of `NegatedCorners`: entry `i` is its triangle's
   solve, never negated, with tangent and bitangent both normalised;
   bitangents keep that value to the end.
   */
  lemma NormalizedCorners<C>(geo: Geometry<C>, p: Pools<C>, i: nat)
    requires InRange(p) && Aligned(p) && i < |p.vertexIndices|
    ensures var b := geo.solve(TriangleOf(p, i / 3), false);
      && AllFrames(CppObject, geo, p).tangents[i] == geo.normalize(b.tangent)
      && AllFrames(CppObject, geo, p).bitangents[i] == geo.normalize(b.bitangent)
      && TangentSpace(CppObject, geo, p).bitangents[i] == geo.normalize(b.bitangent)
  {
    assert 3 * (i / 3) + 3 <= |p.vertexIndices|;
  }

  /**
   In object.h's lists (before orthogonalisation), entry `i` is the solve of
   its triangle with the determinant negated exactly for entries 15 to 17 and
   33 to 35; bitangents keep that value to the end.
   */
  lemma NegatedCorners<C>(geo: Geometry<C>, p: Pools<C>, i: nat)
    requires InRange(p) && Aligned(p) && i < |p.vertexIndices|
    ensures var negate := 15 <= i < 18 || 33 <= i < 36;
      var b := geo.solve(TriangleOf(p, i / 3), negate);
      && AllFrames(HeaderObject, geo, p).tangents[i] == b.tangent
      && AllFrames(HeaderObject, geo, p).bitangents[i] == b.bitangent
      && TangentSpace(HeaderObject, geo, p).bitangents[i] == b.bitangent
  {
    var t := i / 3;
    assert 3 * t + 3 <= |p.vertexIndices|;
    assert NegatesDeterminant(HeaderObject, 3 * t) <==> 15 <= i < 18 || 33 <= i < 36;
  }
}

=== FILE: tokenizer.dfy ===
/**
 Tokenisation with `std::getline` semantics on a string stream, as done by
 `object::split_string` (object.cpp) and `Object::splitString` (object.h):
 every delimiter ends a token, consecutive delimiters give empty tokens, and a
 delimiter at the very end does not start a further (empty) token.
 */
module Tokenizer {

  /** Index of the first `delim` in `s`, or `|s|` when there is none. */
  function IndexOf(s: string, delim: char): (i: nat)
    ensures i <= |s|
    ensures i < |s| ==> s[i] == delim
    ensures forall k :: 0 <= k < i ==> s[k] != delim
    decreases |s|
  {
    if s == [] then 0
    else if s[0] == delim then 0
    else 1 + IndexOf(s[1..], delim)
  }

  /** True when `s` ends with `delim`. */
  predicate EndsWith(s: string, delim: char) {
    |s| > 0 && s[|s| - 1] == delim
  }

  /** Number of occurrences of `c` in `s`. */
  function Occurrences(s: string, c: char): nat
    decreases |s|
  {
    if s == [] then 0 else (if s[0] == c then 1 else 0) + Occurrences(s[1..], c)
  }

  /**
   The tokens `while (std::getline(ss, token, delim)) result.push_back(token);`
   collects from a stream holding `s`.
   */
  function Split(s: string, delim: char): (tokens: seq<string>)
    ensures tokens == [] <==> s == []
    decreases |s|
  {
    if s == [] then []
    else
      var i := IndexOf(s, delim);
      if i == |s| then [s]
      else [s[..i]] + Split(s[i + 1..], delim)
  }

  /** No token contains the delimiter. */
  lemma {:induction false} SplitTokensLackDelimiter(s: string, delim: char)
    ensures forall k :: 0 <= k < |Split(s, delim)| ==> delim !in Split(s, delim)[k]
    decreases |s|
  {
    if s != [] {
      var i := IndexOf(s, delim);
      if i < |s| {
        SplitTokensLackDelimiter(s[i + 1..], delim);
      }
    }
  }

  /** The tokens glued back together with one `delim` between neighbours. */
  function Join(tokens: seq<string>, delim: char): string
    decreases |tokens|
  {
    if tokens == [] then []
    else if |tokens| == 1 then tokens[0]
    else tokens[0] + [delim] + Join(tokens[1..], delim)
  }

  /** `s` without one trailing `delim`, if it has one. */
  function DropTrailing(s: string, delim: char): string
  {
    if EndsWith(s, delim) then s[..|s| - 1] else s
  }

  /** Dropping a trailing delimiter only affects the part after the first delimiter. */
  lemma DropTrailingAfter(s: string, i: nat, delim: char)
    requires i < |s| - 1 && s[i] == delim
    ensures DropTrailing(s, delim) == s[..i] + [delim] + DropTrailing(s[i + 1..], delim)
  {
    var rest := s[i + 1..];
    assert EndsWith(s, delim) == EndsWith(rest, delim);
    if EndsWith(s, delim) {
      assert s[..|s| - 1] == s[..i] + [delim] + rest[..|rest| - 1];
    } else {
      assert s == s[..i] + [delim] + rest;
    }
  }

  /** Joining the tokens reproduces the input, less one trailing delimiter. */
  lemma {:induction false} JoinSplit(s: string, delim: char)
    ensures Join(Split(s, delim), delim) == DropTrailing(s, delim)
    decreases |s|
  {
    if s != [] {
      var i := IndexOf(s, delim);
      if i < |s| {
        var rest := s[i + 1..];
        if rest == [] {
          assert Split(s, delim) == [s[..i]];
          assert s[..i] == s[..|s| - 1];
        } else {
          JoinSplit(rest, delim);
          var tokens := Split(rest, delim);
          assert Split(s, delim) == [s[..i]] + tokens;
          assert Join([s[..i]] + tokens, delim) == s[..i] + [delim] + Join(tokens, delim);
          DropTrailingAfter(s, i, delim);
        }
      }
    }
  }

  /** A joined sequence whose last token is non-empty is itself non-empty. */
  lemma {:induction false} JoinNonEmpty(tokens: seq<string>, delim: char)
    requires tokens != [] && tokens[|tokens| - 1] != []
    ensures Join(tokens, delim) != []
    decreases |tokens|
  {
    if |tokens| > 1 {
      JoinNonEmpty(tokens[1..], delim);
    }
  }

  /** The first delimiter of `t + [delim] + u` is the one after `t` when `t` has none. */
  lemma IndexOfAfterToken(t: string, u: string, delim: char)
    requires delim !in t
    ensures IndexOf(t + [delim] + u, delim) == |t|
  {
    var s := t + [delim] + u;
    assert forall k :: 0 <= k < |t| ==> s[k] == t[k];
    assert s[|t|] == delim;
  }

  /**
   Splitting undoes joining, provided no token contains the delimiter and the
   last token is not empty. A joined string never ends with the delimiter, so
   an empty last token would be dropped; `SplitJoinTerminated` covers those
   token lists.
   */
  lemma {:induction false} SplitJoin(tokens: seq<string>, delim: char)
    requires forall k :: 0 <= k < |tokens| ==> delim !in tokens[k]
    requires tokens != [] ==> tokens[|tokens| - 1] != []
    ensures Split(Join(tokens, delim), delim) == tokens
    decreases |tokens|
  {
    if |tokens| == 1 {
      var t := tokens[0];
      assert IndexOf(t, delim) == |t|;
    } else if |tokens| > 1 {
      var t := tokens[0];
      var u := Join(tokens[1..], delim);
      JoinNonEmpty(tokens[1..], delim);
      IndexOfAfterToken(t, u, delim);
      var s := t + [delim] + u;
      assert s[..|t|] == t;
      assert s[|t| + 1..] == u;
      SplitJoin(tokens[1..], delim);
      assert tokens == [t] + tokens[1..];
    }
  }

  /**
   The full inverse: any non-empty list of tokens free of the delimiter,
   joined and closed by one more delimiter, splits back into exactly those
   tokens, empty ones included (`"a,,"` splits into `"a"` and `""`).
   */
  lemma {:induction false} SplitJoinTerminated(tokens: seq<string>, delim: char)
    requires tokens != []
    requires forall k :: 0 <= k < |tokens| ==> delim !in tokens[k]
    ensures Split(Join(tokens, delim) + [delim], delim) == tokens
    decreases |tokens|
  {
    var t := tokens[0];
    if |tokens| == 1 {
      var s := t + [delim];
      IndexOfAfterToken(t, [], delim);
      assert s[..|t|] == t && s[|t| + 1..] == [];
    } else {
      var u := Join(tokens[1..], delim) + [delim];
      var s := t + [delim] + u;
      assert Join(tokens, delim) + [delim] == s;
      IndexOfAfterToken(t, u, delim);
      assert s[..|t|] == t;
      assert s[|t| + 1..] == u;
      SplitJoinTerminated(tokens[1..], delim);
      assert tokens == [t] + tokens[1..];
    }
  }

  /** A leading delimiter contributes one empty token; hence consecutive delimiters give empty tokens. */
  lemma LeadingDelimiter(s: string, delim: char)
    ensures Split([delim] + s, delim) == [[]] + Split(s, delim)
  {
    var t := [delim] + s;
    assert IndexOf(t, delim) == 0;
    assert t[1..] == s;
  }

  /**
   The token count: one token per delimiter, plus one for a final token that
   is not closed by a delimiter.
   */
  lemma {:induction false} SplitCount(s: string, delim: char)
    ensures |Split(s, delim)| == Occurrences(s, delim) + (if s != [] && !EndsWith(s, delim) then 1 else 0)
    decreases |s|
  {
    if s != [] {
      var i := IndexOf(s, delim);
      OccurrencesPrefix(s, i, delim);
      if i < |s| {
        SplitCount(s[i + 1..], delim);
        if s[i + 1..] != [] {
          assert EndsWith(s, delim) == EndsWith(s[i + 1..], delim);
        }
      }
    }
  }

  /** Before the first delimiter there is none; from it on, every occurrence is counted. */
  lemma {:induction false} OccurrencesPrefix(s: string, i: nat, delim: char)
    requires i == IndexOf(s, delim)
    ensures i == |s| ==> Occurrences(s, delim) == 0
    ensures i < |s| ==> Occurrences(s, delim) == 1 + Occurrences(s[i + 1..], delim)
    decreases |s|
  {
    if s != [] && s[0] != delim {
      OccurrencesPrefix(s[1..], i - 1, delim);
      if i < |s| {
        assert s[1..][i..] == s[i + 1..];
      }
    }
  }
}
